=== FILE: README.md ===
# Numeric storage priority: a Dafny model

This project models the core of the RimWorld mod *Numeric Storage Priority*. The mod replaces the storage
tab's fixed priority drop-down with a numeric priority (any byte), plus a user-editable table of
names for chosen numbers. The model covers four pieces of its logic.

- **The metadata-preserving splicer** (`HarmonyExtensions`).
  - `SafeInsertRange` and `SafeReplaceRange` splice a run into a method's instruction list.
  - They then move the labels and exception blocks of the *anchor* (the instruction that stood at the splice
    index) onto whatever instruction stands there now, through `TransferLabelsAndBlocksFrom`.
  - The move can take everything or only the items a selector names.
- **The storage-tab transpiler** (`ITabStorageFillTab`).
  - It finds the `if (IsPrioritySettingVisible)` check and the `HighlightOpportunity(…, "StoragePriority")`
    call.
  - It replaces everything after the visibility check's branch, up to and including the `HighlightOpportunity`
    call, with `DrawGUI(this)`.
  - The same file holds the priority menu: `StoragePriorityName`, `BuildOptions` and the five sort
    directions (`MenuOrder`, the stable sorts behind `OrderBy` and `OrderByDescending`).
- **The settings editor** (`NumericStoragePrioritySettings`).
  - The free-preset search and the Add button.
  - The search filter.
  - The per-row edit capture with its byte-parse fallback.
  - Confirm and Delete, modelled as map updates. One call of `DoSettingsWindowContents` is one drawn frame.
- **The save format** (`ScribeValuesLook`).
  - The prefix on `Scribe_Values.Look<StoragePriority>` writes the vanilla enum name, falling back to
    `Critical`, plus a `<label>Numeric` element holding the exact byte.
  - When loading, it prefers the numeric element.

## Modelling choices

- **Instructions are values.** The anchor is therefore tracked by its position:
  - when the splice removes instructions, the anchor is gone;
  - when it removes none, the anchor sits right after the inserted run;
  - when it neither removes nor inserts, the anchor is the receiver itself. Transferring an instruction's
    metadata to itself leaves it in place without a selector. With a selector, the selected items move to
    the end (`HarmonyExtensions.TransferWithin`); "## Left out" says where the runtime throws instead.
- **Failures are `Result` errors.**
  - `SpliceError` lists the three exceptions a splice can raise: the index read before the splice, the
    range the list refuses, and the index read after the splice.
  - `MenuError.SortOutOfRange` is the `ArgumentOutOfRangeException` for a sort value outside the five
    directions. Such a value is `SortDirection.Undefined`.
- **The transpiler needs both anchors.** `FindSequenceIndex`'s own code is not part of this model. It is
  specified as the leftmost index where the pattern's predicates hold of consecutive instructions. The
  transpiler requires both anchors to be present, because the source does not check for a missing one.
- **Integer conversions are explicit.**
  - A `(byte)` cast is `Decimal.ToByte`, which reduces modulo 256.
  - `ToString` on bytes and ints is `Decimal.Show` / `Decimal.ShowInt`.
  - The integer read of `ScribeExtractor.ValueFromNode` is `Decimal.ParseInt`: decimal digits after an
    optional `-`, and the 32-bit range.
  - `byte.TryParse` is `Decimal.ParseByte`: an `int` parse followed by a 0..255 range check, so a minus
    sign in front of zero digits (`"-0"`) is read as 0.
- **Culture-sensitive operations have stand-ins.**
  - `ToLower` is ASCII lower-casing (`Text.Lower`).
  - The default string comparison is ordinal lexicographic order (`Text.LexLe`). It is a total order,
    which is all the menu's ordering laws need.
- **External data are parameters.**
  - The dictionary's enumeration order is an `order` sequence.
  - The game's default labels, used to seed an empty map, are a `defaults` map.
  - The defined members of the game's `StoragePriority` enum are a value-to-name map.
  - The save document is an element-name-to-text map.

Three behaviours of the code are worth stating plainly, because a reader might expect otherwise:
- **Not all-or-nothing.** `SafeReplaceRange` throws at `HarmonyExtensions.cs:24` after the list has already
  been spliced.
- **Labels can be lost.** Labels and blocks on removed instructions other than the anchor are dropped. The
  counts of labels and blocks are kept only under the conditions of `ReplaceConservesLabels` /
  `ReplaceConservesBlocks`. `ReplaceDropsLabelOfRemovedSuccessor` exhibits a lost label.
- **The end anchor is searched from the start.** The transpiler searches the whole method for the end anchor,
  not just the part after the start anchor. An end anchor before the start one makes the splice's range check
  fail.

## Model

| member | source | states |
|---|---|---|
| HarmonyExtensions.TakeSelectedCounts | Source/HarmonyPatches/HarmonyExtensions.cs:33 | filtering the selector through `Remove` on the source list yields exactly the items both hold (multiset intersection) and leaves the source minus the selector |
| HarmonyExtensions.TakeSelectedPartitions | Source/HarmonyPatches/HarmonyExtensions.cs:37 | what a selective transfer takes plus what it leaves behind is exactly what the source held |
| HarmonyExtensions.RotateSelectedKeepsItems | Source/HarmonyPatches/HarmonyExtensions.cs:33 | a selective transfer of a list onto itself only reorders it |
| HarmonyExtensions.MigrateWithin | Source/HarmonyPatches/HarmonyExtensions.cs:30-33 | a list transferred onto itself is unchanged without a selector and keeps its items with one |
| HarmonyExtensions.Migrate | Source/HarmonyPatches/HarmonyExtensions.cs:30-37 | the receiver keeps its items and gains the source's: all of them, in order, without a selector, and with one the selected items the source held; the source keeps only what was not moved; nothing is created or lost |
| HarmonyExtensions.TransferLabelsAndBlocksFrom | Source/HarmonyPatches/HarmonyExtensions.cs:27-39 | receiver and source keep their operation; labels and blocks each move as `Migrate` states, independently of each other; the receiver is what is returned |
| HarmonyExtensions.TransferWithin | Source/HarmonyPatches/HarmonyExtensions.cs:27-39 | an instruction transferring to itself keeps its operation and its labels and blocks as multisets, and exactly as lists when there is no selector |
| HarmonyExtensions.MoveAnchorMetadata | Source/HarmonyPatches/HarmonyExtensions.cs:24 | the post-splice transfer touches only the receiver and a kept anchor, keeps the length, and keeps the receiver's operation |
| HarmonyExtensions.AnchorMetadataMoves | Source/HarmonyPatches/HarmonyExtensions.cs:14-24 | the receiver's labels and blocks are its own followed by what moved off the anchor; a kept anchor keeps its operation and holds what the selectors did not name; a self-transfer keeps the receiver's items |
| HarmonyExtensions.SafeReplaceRange | Source/HarmonyPatches/HarmonyExtensions.cs:19-25 | it fails with the pre-splice index error iff the index is outside the list, with the range error iff the run does not fit, and succeeds iff the index is still inside the spliced list; the length becomes old − count + inserted (a zero-count, empty-run splice whose selector names an item the anchor holds throws at runtime instead; see "## Left out") |
| HarmonyExtensions.SafeInsertRange | Source/HarmonyPatches/HarmonyExtensions.cs:11-17 | it fails, with the index error only, iff the index is outside the list; the length grows by the inserted count (an empty insert whose selector names an item the anchor holds throws at runtime instead; see "## Left out") |
| HarmonyExtensions.InsertIsReplaceOfNothing | Source/HarmonyPatches/HarmonyExtensions.cs:11-25 | inserting equals replacing zero instructions, errors included |
| HarmonyExtensions.ReplaceKeepsSurroundings | Source/HarmonyPatches/HarmonyExtensions.cs:22-24 | instructions before the index, the inserted run after its head, and everything after the removed run are in place, in order; the head keeps its operation |
| HarmonyExtensions.ReplaceMovesAnchorMetadata | Source/HarmonyPatches/HarmonyExtensions.cs:22-24 | the instruction now at the index gains the anchor's labels and blocks after its own; when nothing is removed, the anchor after the run keeps what the selectors did not name |
| HarmonyExtensions.EmptyInsertChangesNothing | Source/HarmonyPatches/HarmonyExtensions.cs:14-16 | inserting nothing with no selectors leaves the list exactly as it was |
| HarmonyExtensions.ReplaceAccountsForLabels | Source/HarmonyPatches/HarmonyExtensions.cs:22-24 | the result's labels plus those lost (on removed instructions after the anchor, and on a removed anchor not selected) equal the list's labels plus the inserted run's |
| HarmonyExtensions.ReplaceAccountsForBlocks | Source/HarmonyPatches/HarmonyExtensions.cs:22-24 | the same accounting for exception blocks |
| HarmonyExtensions.ReplaceConservesLabels | Source/HarmonyPatches/HarmonyExtensions.cs:22-24 | the multiset of labels is unchanged when the inserted run has none, the removed instructions after the anchor have none, and a removed anchor has all of its labels selected |
| HarmonyExtensions.ReplaceConservesBlocks | Source/HarmonyPatches/HarmonyExtensions.cs:22-24 | the same conservation for exception blocks |
| HarmonyExtensions.ReplaceMovesAnchorLabelToNewHead | Source/HarmonyPatches/HarmonyExtensions.cs:22-24 | replacing the labelled instruction of a five-instruction list moves its label and block onto the first new instruction |
| HarmonyExtensions.ReplaceDropsLabelOfRemovedSuccessor | Source/HarmonyPatches/HarmonyExtensions.cs:22-24 | a label on a removed instruction other than the anchor is in no instruction of the result |
| SequenceMatcher.FindSequenceIndex | Source/HarmonyPatches/ITab_Storage_FillTab.cs:34-36 | the result is a match with no match before it, and there is none iff the pattern matches nowhere |
| ITabStorageFillTab.StartIndex | Source/HarmonyPatches/ITab_Storage_FillTab.cs:34-36 | the window starts right after the leftmost `callvirt get_IsPrioritySettingVisible` that is directly followed by `brfalse` |
| ITabStorageFillTab.EndIndex | Source/HarmonyPatches/ITab_Storage_FillTab.cs:43-45 | the window ends right after the leftmost `ldstr "StoragePriority"` that is directly followed by `call HighlightOpportunity` |
| ITabStorageFillTab.Transpiler | Source/HarmonyPatches/ITab_Storage_FillTab.cs:30-61 | the patch succeeds iff start ≤ end and start is inside the method; otherwise it fails with the range or the index error; the length becomes old − (end − start) + 2 |
| ITabStorageFillTab.ReplacementWindow | Source/HarmonyPatches/ITab_Storage_FillTab.cs:55-58 | replacing `[start, end)` with `ldarg.0; call DrawGUI` keeps the code around the window in place and gives the window head's labels and blocks to the `ldarg.0` |
| ITabStorageFillTab.TranspilerWindow | Source/HarmonyPatches/ITab_Storage_FillTab.cs:55-58 | the patched method is the code before the window, `ldarg.0` carrying the head's labels and blocks, `call DrawGUI`, and the code after the end anchor (the anchor pair itself is inside the window and is removed) |
| ITabStorageFillTab.TranspilerKeepsLabels | Source/HarmonyPatches/ITab_Storage_FillTab.cs:55-58 | no label is lost when only the window's head carries labels |
| ITabStorageFillTab.StoragePriorityName | Source/HarmonyPatches/ITab_Storage_FillTab.cs:122-129 | the custom name when names are on and the priority has one, the decimal text of the priority otherwise |
| ITabStorageFillTab.NumericNameReadsBack | Source/HarmonyPatches/ITab_Storage_FillTab.cs:128 | a name that is not a custom name parses back to the priority |
| ITabStorageFillTab.MenuEntries | Source/HarmonyPatches/ITab_Storage_FillTab.cs:94-112 | the menu lists a permutation of the custom names, sorted by the chosen direction |
| ITabStorageFillTab.MenuEntriesAreNames | Source/HarmonyPatches/ITab_Storage_FillTab.cs:113-115 | each listed entry is a key of the custom names with its own name |
| ITabStorageFillTab.BuildOption | Source/HarmonyPatches/ITab_Storage_FillTab.cs:118-120 | the option sets the priority it is built for; its caption is the custom name when names are on and the priority has one, and otherwise text that parses back to that priority |
| ITabStorageFillTab.BuildOptions | Source/HarmonyPatches/ITab_Storage_FillTab.cs:92-120 | it fails iff the sort value is none of the five directions; otherwise there is one option per custom name, each option's caption is the name of the priority it sets, and that priority is a key cast to a byte; option i is the option built for entry i of the sorted name list, so each name gets exactly its own option |
| ITabStorageFillTab.NumericOptionsOrdered | Source/HarmonyPatches/ITab_Storage_FillTab.cs:98-103 | with byte keys, `NumericDesc` lists priorities non-increasing and `NumericAsc` non-decreasing |
| ITabStorageFillTab.AlphaOptionsOrdered | Source/HarmonyPatches/ITab_Storage_FillTab.cs:104-109 | with names shown and byte keys, `AlphaAsc` lists captions ascending and `AlphaDesc` descending |
| ITabStorageFillTab.OriginalOptionsInEnumerationOrder | Source/HarmonyPatches/ITab_Storage_FillTab.cs:96-97 | `Original` lists the priorities in the dictionary's enumeration order |
| ITabStorageFillTab.EveryNameHasAnOption | Source/HarmonyPatches/ITab_Storage_FillTab.cs:113-115 | every custom name with a byte key has an option setting exactly that priority |
| ITabStorageFillTab.CriticalBeforeTrash | Source/HarmonyPatches/ITab_Storage_FillTab.cs:98-125 | names {10: "Critical", 0: "Trash"} sorted by descending number give the options "Critical" (10), then "Trash" (0), whatever the enumeration order |
| MenuOrder.LeTotal | Source/HarmonyPatches/ITab_Storage_FillTab.cs:95-109 | every sort direction ranks any two entries one way or the other |
| MenuOrder.LeTransitive | Source/HarmonyPatches/ITab_Storage_FillTab.cs:95-109 | every sort direction is transitive |
| MenuOrder.Insert | Source/HarmonyPatches/ITab_Storage_FillTab.cs:99-108 | insertion adds exactly the one entry |
| MenuOrder.StableSort | Source/HarmonyPatches/ITab_Storage_FillTab.cs:99-108 | the sort is a permutation of its input |
| MenuOrder.InsertSorted | Source/HarmonyPatches/ITab_Storage_FillTab.cs:99-108 | insertion keeps a list sorted |
| MenuOrder.StableSortSorted | Source/HarmonyPatches/ITab_Storage_FillTab.cs:99-108 | the sort's output is sorted by the direction |
| MenuOrder.InsertKeepsClass | Source/HarmonyPatches/ITab_Storage_FillTab.cs:99-108 | inserting in front of its equals keeps each class of equally-ranked entries in input order |
| MenuOrder.StableSortKeepsClasses | Source/HarmonyPatches/ITab_Storage_FillTab.cs:99-108 | stability: entries the direction ranks equal come out in the order they went in |
| MenuOrder.OriginalKeepsOrder | Source/HarmonyPatches/ITab_Storage_FillTab.cs:96-97 | `Original` leaves the enumeration order untouched |
| NumericStoragePrioritySettings.FreeFrom | Source/NumericStoragePrioritySettings.cs:150-156 | the search returns the first free value at or after its start and below 255, and every value it skipped is taken |
| NumericStoragePrioritySettings.FindFreePresetNumber | Source/NumericStoragePrioritySettings.cs:149-157 | the smallest value in 0..254 that is not a key; none iff all of 0..254 are keys; never 255 |
| NumericStoragePrioritySettings.AddPreset | Source/NumericStoragePrioritySettings.cs:87-92 | a click with a free preset adds that key under the default name, grows the map by one and overwrites nothing; otherwise the map is unchanged |
| NumericStoragePrioritySettings.ListedEntries | Source/NumericStoragePrioritySettings.cs:97-101 | an entry is drawn iff its lower-cased name or its key's decimal text contains the search text |
| NumericStoragePrioritySettings.EmptySearchListsAll | Source/NumericStoragePrioritySettings.cs:85-101 | an empty search draws every entry, in order |
| NumericStoragePrioritySettings.PriorityField | Source/NumericStoragePrioritySettings.cs:103 | the edited row's priority field holds text that parses back to the pending priority; any other row's holds its key's decimal text, which falls back to the key cast to a byte |
| NumericStoragePrioritySettings.NameField | Source/NumericStoragePrioritySettings.cs:104 | the edited row's name field holds the pending name; any other row's holds its own name |
| NumericStoragePrioritySettings.ParsedPriority | Source/NumericStoragePrioritySettings.cs:109-111 | the typed priority when it parses as a byte, the entry's key cast to a byte otherwise |
| NumericStoragePrioritySettings.UntouchedPriorityFieldGivesKey | Source/NumericStoragePrioritySettings.cs:103-111 | an unedited priority field yields the entry's key cast to a byte |
| NumericStoragePrioritySettings.UntouchedRowKeepsEditState | Source/NumericStoragePrioritySettings.cs:103-119 | a byte-keyed row whose fields the user left alone does not change the edit state |
| NumericStoragePrioritySettings.EditedRowStaysEdited | Source/NumericStoragePrioritySettings.cs:113-119 | the edited row stays edited and records exactly what was typed |
| NumericStoragePrioritySettings.OutOfRangeKeyIsAlwaysCaptured | Source/NumericStoragePrioritySettings.cs:113-119 | a row whose key is not a byte is captured on every frame, under the truncated key, and is then not the edited row |
| NumericStoragePrioritySettings.CaptureEdit | Source/NumericStoragePrioritySettings.cs:113-119 | the editor is either left as it was or set to this row's byte key, parsed priority and typed name; it changes only when the row already was the edited one or its priority or name differs from the entry, and in those cases it always records the row |
| NumericStoragePrioritySettings.ProcessRow | Source/NumericStoragePrioritySettings.cs:103-131 | a row captures its edit or leaves the editor alone; a commit is requested only by a click on Confirm, which is drawn only on the edited row, whose key must then be a byte; such a click always requests it; a Delete click marks the row's byte key, and without one the mark stays |
| NumericStoragePrioritySettings.ProcessRows | Source/NumericStoragePrioritySettings.cs:95-132 | a requested commit always has an edited priority and needs a Confirm click on some byte-keyed row; the edit state afterwards is the old one or exactly what one drawn row recorded (its byte key, parsed priority and typed name); without a Delete click nothing is marked; a marked key is the byte key of a row whose Delete was clicked, and it is the key of the last such row (that a Confirm on the edited row does request the commit is `ConfirmOnEditedRowRequestsCommit`) |
| NumericStoragePrioritySettings.NamesShown | Source/NumericStoragePrioritySettings.cs:62-92 | an empty map is seeded with the game's default labels, a non-empty one is kept; without an Add click that is the map drawn; an Add click adds at most one key and overwrites nothing |
| NumericStoragePrioritySettings.Commit | Source/NumericStoragePrioritySettings.cs:136-142 | the new priority maps to the new name, overwriting any entry there; the old key is gone unless it is the new one; all other keys keep their names |
| NumericStoragePrioritySettings.FinishFrame | Source/NumericStoragePrioritySettings.cs:136-146 | a commit resets the editor and otherwise it is kept; a commit removes the edited entry's old key unless it is the new priority, and maps the new priority to the new name unless that key is then deleted; the deleted key is absent even after a commit; keys touched by neither keep their names; with neither, the map is unchanged |
| NumericStoragePrioritySettings.DoSettingsWindowContents | Source/NumericStoragePrioritySettings.cs:60-147 | after a frame, the editor is reset, unchanged, or editing a row drawn in that frame; when the rows requested a commit, the editor is reset, the edited entry's old key is gone unless it is the new priority, and the new priority maps to the new name unless the same frame deletes it; without a commit the editor is what the rows left; without a Confirm or Delete click the map is the one drawn; the key of the last row whose Delete was clicked is gone; every key no Delete click names, and, when some Confirm was clicked, that is neither a key the editor held nor a drawn row's key or parsed priority, keeps its name (that a Confirm on the edited row saves the typed entry is `ConfirmSavesEdit`) |
| NumericStoragePrioritySettings.IdleRowsKeepState | Source/NumericStoragePrioritySettings.cs:97-132 | rows left alone change neither the edit state nor the pending actions |
| NumericStoragePrioritySettings.IdleFrameChangesNothing | Source/NumericStoragePrioritySettings.cs:60-147 | a frame without typing or clicks leaves a non-empty, byte-keyed map and the edit state as they were |
| NumericStoragePrioritySettings.ProcessRowsSplit | Source/NumericStoragePrioritySettings.cs:97-132 | walking the rows in two consecutive pieces ends in the same state as walking them in one |
| NumericStoragePrioritySettings.ConfirmOnEditedRowRequestsCommit | Source/NumericStoragePrioritySettings.cs:121-125 | when a row is the edited one after its capture step and its Confirm is clicked, the walk over all rows requests the commit, whatever the later rows do |
| NumericStoragePrioritySettings.ListedKeepsKeysDistinct | Source/NumericStoragePrioritySettings.cs:97-101 | filtering entries by the search text never repeats a key that was unique before |
| NumericStoragePrioritySettings.RowsShownDistinct | Source/NumericStoragePrioritySettings.cs:97-101 | the rows of one frame come from a dictionary, so no key is drawn twice |
| NumericStoragePrioritySettings.ConfirmedRowsState | Source/NumericStoragePrioritySettings.cs:97-132 | with distinct byte keys, the editor on row i, every other row left alone and row i's Confirm clicked, the walk ends editing row i with its parsed priority and typed name, a commit requested, and row i marked for deletion exactly when its Delete was clicked |
| NumericStoragePrioritySettings.ConfirmSavesEdit | Source/NumericStoragePrioritySettings.cs:113-146 | with the editor on a drawn byte-keyed row, no other row touched and that row's Confirm clicked, the frame resets the editor, maps the typed priority to the typed name unless that row's Delete was clicked too and the priority is unchanged, removes the old key when the priority changed, and leaves every other key with its name |
| ScribeValuesLook.NumericLabel | Source/HarmonyPatches/Scribe_Values_Look.cs:31 | the numeric element's name is the label followed by `Numeric` |
| ScribeValuesLook.NumericLabelDiffers | Source/HarmonyPatches/Scribe_Values_Look.cs:31 | the numeric element never overwrites the vanilla one |
| ScribeValuesLook.LegacyName | Source/HarmonyPatches/Scribe_Values_Look.cs:53-56 | a defined value's member name, `Critical` for any other value |
| ScribeValuesLook.MemberNamed | Source/HarmonyPatches/Scribe_Values_Look.cs:69 | the found value is a member with that name, and none is found only when no member from the start on has it |
| ScribeValuesLook.ParseMember | Source/HarmonyPatches/Scribe_Values_Look.cs:69 | the member with the element's name, the default when no member has it |
| ScribeValuesLook.ParseNumeric | Source/HarmonyPatches/Scribe_Values_Look.cs:67 | the numeric element read as an int and cast to a byte, the default when it does not parse |
| ScribeValuesLook.Prefix | Source/HarmonyPatches/Scribe_Values_Look.cs:23-77 | the original runs iff the mode is neither saving nor loading; a default value that is not forced writes nothing; a save writes the legacy name and a numeric element that parses back to the value, leaving other elements alone; a load prefers the numeric element, then the vanilla one, then the default |
| ScribeValuesLook.SaveLoadRoundTrip | Source/HarmonyPatches/Scribe_Values_Look.cs:35-71 | saving any byte into a fresh node and loading it back yields that byte, forced or not |
| ScribeValuesLook.LegacyReadBack | Source/HarmonyPatches/Scribe_Values_Look.cs:53-57 | the vanilla element alone reads back as the value when the enum defines it, and as `Critical` otherwise |
| Decimal.ToByte | Source/HarmonyPatches/ITab_Storage_FillTab.cs:114 | the `(byte)` cast: congruent to its input modulo 256, and the identity on 0..255 |
| Decimal.Show | Source/HarmonyPatches/ITab_Storage_FillTab.cs:128 | a byte's decimal text is canonical, one digit exactly below 10 |
| Decimal.ShowInt | Source/NumericStoragePrioritySettings.cs:99 | an int's text is non-empty and starts with `-` exactly when the int is negative |
| Decimal.ParseByte | Source/NumericStoragePrioritySettings.cs:109 | a parse succeeds iff the text reads as an `int` in 0..255, and yields that value: the digits' value for unsigned text, 0 for a signed zero |
| Decimal.NegativeZeroIsByte | Source/NumericStoragePrioritySettings.cs:109 | `"-0"` and `"-00"` read as the byte 0, while `"-1"` and `"256"` are rejected |
| Decimal.ParseInt | Source/HarmonyPatches/Scribe_Values_Look.cs:67 | a parsed int lies in the 32-bit range and is negative only after a leading `-`; it is the value of the digits after an optional `-`, negated when the sign is there; parsing succeeds whenever those digits are non-empty and their signed value fits 32 bits |
| Decimal.ShowParseByteRoundTrip | Source/NumericStoragePrioritySettings.cs:103-111 | a byte's text parses back as that byte |
| Decimal.ShowIntParseRoundTrip | Source/HarmonyPatches/Scribe_Values_Look.cs:59-67 | a 32-bit int's text parses back as that int |
| Decimal.ParseByteShowInt | Source/NumericStoragePrioritySettings.cs:99-111 | an int's text parses as a byte iff the int is in 0..255, and then as that int |
| Text.LexLeTotal | Source/HarmonyPatches/ITab_Storage_FillTab.cs:104-108 | the string order ranks any two names one way or the other |
| Text.LexLeTransitive | Source/HarmonyPatches/ITab_Storage_FillTab.cs:104-108 | the string order is transitive |
| Text.LexLeAntisymmetric | Source/HarmonyPatches/ITab_Storage_FillTab.cs:104-108 | names the string order ranks both ways are equal |
| Text.ContainsEmpty | Source/NumericStoragePrioritySettings.cs:98-99 | every text contains the empty search |

## Left out

- `DrawGUI`, the settings window's widgets, checkboxes, scroll view and float menus, and the Sort button
  (`NumericStoragePrioritySettings.cs:69-83`) are UI. They use floating-point layout and only assign fields.
- `TargetMethod`, the `PropertyInfo`/`FieldInfo` statics and `GetMethod` are reflection plumbing. Operands are
  compared by the member they name.
- `NumericStoragePriorityMod.cs` is not part of this model. It holds the Harmony bootstrap and the settings
  singleton.
- `ExposeData` and the Scribe/XML I/O are not modelled. The save document is a map, so writing an element
  that already exists replaces it rather than appending a duplicate.
- The culture-dependent parts of `ToLower`, `ToString` and string comparison are not modelled. The model uses
  ASCII lower-casing and ordinal order instead.
- Decimal.ParseByte, Decimal.ParseInt: `byte.TryParse` and `int` parsing accept surrounding white space and a
  `+` sign; the model does not.
- Parsing an enum name on load also accepts numeric and comma-separated text. The model reads member names
  only.
- The `IsNull` branch of the save path (`Scribe_Values_Look.cs:40-50`) is not modelled, because it can never
  run. `value as StoragePriority?` of a non-nullable value always has a value, and the model has no null.
- `FindSequenceIndex`'s own code is not part of this model, and neither is the transpiler's behaviour when an
  anchor is missing. `Transpiler` requires both anchors.
- HarmonyExtensions.SafeReplaceRange: when the index is past the end of the spliced list, the source throws
  after the list has been spliced. The model returns the error and not the half-done list.
- HarmonyExtensions.TransferWithin, HarmonyExtensions.MigrateWithin, HarmonyExtensions.RotateSelectedKeepsItems,
  HarmonyExtensions.SafeInsertRange, HarmonyExtensions.SafeReplaceRange: these members model a selective
  self-transfer as append-at-end, and the two splices return `Ok` for it. On the .NET Framework and Mono runtimes the
  mod runs on, `AddRange` of the lazy `Where` sequence goes through `InsertRange`, which inserts each yielded
  item with `Insert(index++)`, where `index` is the list's size before the transfer. The `Remove` that yields
  the first item shrinks the list, so that `Insert` throws `ArgumentOutOfRangeException`. On those runtimes a
  self-transfer whose selector names an item the list holds therefore throws rather than rotating the list.
  Only a splice that neither removes nor inserts transfers onto itself: `SafeInsertRange` of an empty run,
  or `SafeReplaceRange` with count 0 and an empty run. With a selector naming an item the anchor holds, such a
  splice throws at runtime, while the model returns the list with those items rotated to the end.
- Object identity of `CodeInstruction`s and label aliasing are not modelled. Instructions are values.

=== FILE: decimal.dfy ===
/**
 Decimal text of integers, as .NET's `ToString()` writes it for `byte` and
 `int`, and the parses that read it back (`byte.TryParse`, `int.Parse`) on
 plain digit strings. Also the `byte` type and the unchecked `(byte)` cast.
 */
module Decimal {
  import opened Wrappers

  /** .NET's unsigned 8-bit `byte`. */
  type byte = b: int | 0 <= b < 256

  /** The range of .NET's 32-bit `int`. */
  const IntMin: int := -0x8000_0000
  const IntMax: int := 0x7FFF_FFFF

  /** The explicit `(byte)` cast of an `int` in unchecked context: it keeps the low eight bits. */
  function ToByte(i: int): (b: byte)
    ensures (i - b) % 256 == 0
    ensures 0 <= i < 256 ==> b == i
  {
    i % 256
  }

  predicate IsDigit(c: char) {
    '0' <= c <= '9'
  }

  predicate AllDigits(s: string) {
    forall i :: 0 <= i < |s| ==> IsDigit(s[i])
  }

  /** Digit strings as `ToString()` writes them: non-empty, and no leading zero except for "0" itself. */
  predicate Canonical(s: string) {
    |s| > 0 && AllDigits(s) && (|s| > 1 ==> s[0] != '0')
  }

  function DigitValue(c: char): (d: nat)
    requires IsDigit(c)
    ensures d < 10
  {
    (c as int) - ('0' as int)
  }

  function DigitChar(d: nat): (c: char)
    requires d < 10
    ensures IsDigit(c) && DigitValue(c) == d
  {
    (('0' as int) + d) as char
  }

  /** Decimal text of a natural number, most significant digit first. */
  function Show(n: nat): (s: string)
    ensures Canonical(s)
    ensures n < 10 <==> |s| == 1
    decreases n
  {
    if n < 10 then [DigitChar(n)] else Show(n / 10) + [DigitChar(n % 10)]
  }

  /** Decimal text of an `int`: a minus sign in front of negative values. */
  function ShowInt(i: int): (s: string)
    ensures |s| > 0
    ensures i < 0 <==> s[0] == '-'
  {
    if i < 0 then "-" + Show(-i) else Show(i)
  }

  /** Value of a digit string, read most significant digit first. */
  function DigitsValue(s: string): (r: nat)
    requires AllDigits(s)
    decreases |s|
  {
    if s == [] then 0 else DigitsValue(s[..|s| - 1]) * 10 + DigitValue(s[|s| - 1])
  }

  /** Reads an unsigned decimal number; fails on the empty string and on any non-digit. */
  function ParseNat(s: string): (r: Option<nat>)
    ensures r.Some? <==> |s| > 0 && AllDigits(s)
  {
    if |s| > 0 && AllDigits(s) then Some(DigitsValue(s)) else None
  }

  /** `int.Parse`: an optional minus sign, digits, and a value that fits 32 bits. */
  function ParseInt(s: string): (r: Option<int>)
    ensures r.Some? ==> IntMin <= r.value <= IntMax
    ensures r.Some? && r.value < 0 ==> |s| > 0 && s[0] == '-'
    ensures var negative := |s| > 0 && s[0] == '-';
            var digits := if negative then s[1..] else s;
            r.Some? ==> ParseNat(digits).Some? && r.value == (if negative then -(ParseNat(digits).value as int) else ParseNat(digits).value)
    ensures var negative := |s| > 0 && s[0] == '-';
            var digits := if negative then s[1..] else s;
            (&& ParseNat(digits).Some?
             && (negative ==> ParseNat(digits).value <= -IntMin)
             && (!negative ==> ParseNat(digits).value <= IntMax)) ==> r.Some?
  {
    var negative := |s| > 0 && s[0] == '-';
    var digits := if negative then s[1..] else s;
    match ParseNat(digits)
    case None => None
    case Some(n) =>
      var v: int := if negative then -(n as int) else n;
      if IntMin <= v <= IntMax then Some(v) else None
  }

  /**
   `byte.TryParse`: the text is read as an `int`, and the value is accepted
   when it lies in 0..255. A minus sign is therefore accepted in front of
   digits whose value is zero (`"-0"`, `"-00"`).
   */
  function ParseByte(s: string): (r: Option<byte>)
    ensures r.Some? <==> ParseInt(s).Some? && 0 <= ParseInt(s).value < 256
    ensures r.Some? ==> r.value == ParseInt(s).value
    ensures r.Some? && |s| > 0 && s[0] != '-' ==> AllDigits(s) && r.value == DigitsValue(s)
    ensures r.Some? && |s| > 0 && s[0] == '-' ==> r.value == 0
  {
    var negative := |s| > 0 && s[0] == '-';
    var digits := if negative then s[1..] else s;
    match ParseNat(digits)
    case Some(n) =>
      if negative then (if n == 0 then Some(0) else None)
      else if n < 256 then Some(n) else None
    case None => None
  }

  lemma {:induction false} DigitsValueShow(n: nat)
    ensures DigitsValue(Show(n)) == n
    decreases n
  {
    if n >= 10 {
      var s := Show(n);
      assert s[..|s| - 1] == Show(n / 10);
      DigitsValueShow(n / 10);
    }
  }

  /** Reading the text of a number gives the number back. */
  lemma ShowParseRoundTrip(n: nat)
    ensures ParseNat(Show(n)) == Some(n)
  {
    DigitsValueShow(n);
  }

  /** Every `int` in 32-bit range reads back from its text. */
  lemma ShowIntParseRoundTrip(i: int)
    requires IntMin <= i <= IntMax
    ensures ParseInt(ShowInt(i)) == Some(i)
  {
    var s := ShowInt(i);
    if i < 0 {
      assert s[1..] == Show(-i);
      ShowParseRoundTrip(-i);
    } else {
      ShowParseRoundTrip(i);
      assert s[0] != '-';
    }
  }

  /** Every byte reads back from its text. */
  lemma ShowParseByteRoundTrip(b: byte)
    ensures ParseByte(Show(b)) == Some(b)
  {
    ShowParseRoundTrip(b);
  }

  /** Only values 0..255 have text that reads as a byte; the text of any other `int` is rejected. */
  lemma {:induction false} ParseByteShowInt(i: int)
    ensures ParseByte(ShowInt(i)) == (if 0 <= i < 256 then Some(i) else None)
  {
    var s := ShowInt(i);
    if i < 0 {
      assert s[1..] == Show(-i);
      ShowParseRoundTrip(-i);
    } else {
      ShowParseRoundTrip(i);
    }
  }

  /** A signed zero is a byte, as `byte.TryParse` reads it; any other negative text is not. */
  lemma NegativeZeroIsByte()
    ensures ParseByte("-0") == Some(0) && ParseByte("-00") == Some(0)
    ensures ParseByte("-1") == None && ParseByte("256") == None
  {
    assert "-0"[1..] == "0" && "-00"[1..] == "00" && "-1"[1..] == "1";
    assert "00"[..1] == "0";
    assert "256"[..2] == "25" && "25"[..1] == "2" && "2"[..0] == "";
    assert DigitsValue("2") == 2;
    assert DigitsValue("25") == 25;
    assert DigitsValue("256") == 256;
  }

  lemma {:induction false} LeadingDigitPositive(s: string)
    requires Canonical(s) && s[0] != '0'
    ensures DigitsValue(s) > 0
    decreases |s|
  {
    if |s| > 1 {
      LeadingDigitPositive(s[..|s| - 1]);
    }
  }

  /** The other direction of the round trip: canonical digit text is the text of its value. */
  lemma {:induction false} ParseShowRoundTrip(s: string)
    requires Canonical(s)
    ensures Show(DigitsValue(s)) == s
    decreases |s|
  {
    var last := s[|s| - 1];
    if |s| == 1 {
      assert DigitChar(DigitValue(last)) == last;
    } else {
      var prefix := s[..|s| - 1];
      assert Canonical(prefix);
      LeadingDigitPositive(prefix);
      ParseShowRoundTrip(prefix);
      var n := DigitsValue(s);
      assert n / 10 == DigitsValue(prefix) && n % 10 == DigitValue(last);
      assert DigitChar(DigitValue(last)) == last;
      assert s == prefix + [last];
    }
  }
}

=== FILE: fill_tab.dfy ===
/**
 `ITab_Storage_FillTab`: the transpiler that cuts the priority drop-down
 out of the storage tab's `FillTab` and calls the mod's own `DrawGUI`
 there, plus the priority menu's labels and ordering. Operands compare by
 the member they name, which is how the source's reference comparisons on
 reflected method handles behave.
 */
module ITabStorageFillTab {
  import opened Wrappers
  import opened Decimal
  import opened Text
  import opened Instructions
  import opened HarmonyExtensions
  import opened SequenceMatcher
  import opened NumericStoragePrioritySettings
  import opened MenuOrder

  const VisibilityGetter: Operand := MethodRef("get_IsPrioritySettingVisible")
  const HighlightOpportunity: Operand := MethodRef("HighlightOpportunity")
  const DrawGUI: Operand := MethodRef("DrawGUI")
  const PriorityTag: Operand := StringConst("StoragePriority")

  /** `callvirt get_IsPrioritySettingVisible` */
  predicate IsVisibilityCheck(x: Instruction) {
    x.opcode == Callvirt && x.operand == VisibilityGetter
  }

  /** `brfalse`, to any target */
  predicate IsBranchIfFalse(x: Instruction) {
    x.opcode == Brfalse
  }

  /** `ldstr "StoragePriority"` */
  predicate IsPriorityTag(x: Instruction) {
    x.opcode == Ldstr && x.operand == PriorityTag
  }

  /** `call UIHighlighter.HighlightOpportunity` */
  predicate IsHighlightCall(x: Instruction) {
    x.opcode == Call && x.operand == HighlightOpportunity
  }

  /** `if (IsPrioritySettingVisible)`: the window starts right after it. */
  const StartPattern: Pattern := [IsVisibilityCheck, IsBranchIfFalse]

  /** `UIHighlighter.HighlightOpportunity(rect, "StoragePriority")`: the window ends right after it. */
  const EndPattern: Pattern := [IsPriorityTag, IsHighlightCall]

  /** `ldarg.0; call DrawGUI`, i.e. `DrawGUI(this)`. */
  const Replacement: seq<Instruction> := [Plain(Ldarg0, NoOperand), Plain(Call, DrawGUI)]

  /** The first instruction of the window: just past the leftmost visibility check and its branch. */
  function StartIndex(s: seq<Instruction>): (r: int)
    requires FindSequenceIndex(s, StartPattern).Some?
    ensures 2 <= r <= |s| && IsVisibilityCheck(s[r - 2]) && IsBranchIfFalse(s[r - 1])
    ensures forall k :: 0 <= k < r - 2 ==> !(IsVisibilityCheck(s[k]) && IsBranchIfFalse(s[k + 1]))
  {
    var m := FindSequenceIndex(s, StartPattern).value;
    assert StartPattern[0](s[m]) && StartPattern[1](s[m + 1]);
    forall k | 0 <= k < m
      ensures !(IsVisibilityCheck(s[k]) && IsBranchIfFalse(s[k + 1]))
    {
      assert !MatchesAt(s, StartPattern, k);
    }
    m + 2
  }

  /** One past the window: just past the leftmost `"StoragePriority"` highlight call. */
  function EndIndex(s: seq<Instruction>): (r: int)
    requires FindSequenceIndex(s, EndPattern).Some?
    ensures 2 <= r <= |s| && IsPriorityTag(s[r - 2]) && IsHighlightCall(s[r - 1])
    ensures forall k :: 0 <= k < r - 2 ==> !(IsPriorityTag(s[k]) && IsHighlightCall(s[k + 1]))
  {
    var m := FindSequenceIndex(s, EndPattern).value;
    assert EndPattern[0](s[m]) && EndPattern[1](s[m + 1]);
    forall k | 0 <= k < m
      ensures !(IsPriorityTag(s[k]) && IsHighlightCall(s[k + 1]))
    {
      assert !MatchesAt(s, EndPattern, k);
    }
    m + 2
  }

  /**
   The transpiler: replace `[start, end)` by `DrawGUI(this)`, moving every
   label and block of the window's first instruction onto the `ldarg.0`.
   Both anchors are assumed present; the source does not check. An end
   anchor that lies before the start one is the splice's range error.
   */
  function Transpiler(s: seq<Instruction>): (r: Result<seq<Instruction>, SpliceError>)
    requires FindSequenceIndex(s, StartPattern).Some? && FindSequenceIndex(s, EndPattern).Some?
    ensures r.Ok? <==> StartIndex(s) <= EndIndex(s) && StartIndex(s) < |s|
    ensures r.Err? ==> r.error == (if StartIndex(s) < |s| then RangeOutOfRange else IndexOutOfRange)
    ensures r.Ok? ==> |r.value| == |s| - (EndIndex(s) - StartIndex(s)) + 2
  {
    var start := StartIndex(s);
    var end := EndIndex(s);
    SafeReplaceRange(s, start, end - start, Replacement, None, None)
  }

  /** The labels and blocks of `Replacement`: none. */
  lemma ReplacementCarriesNothing()
    ensures AllLabels(Replacement) == multiset{} && AllBlocks(Replacement) == multiset{}
  {
    var tail := [Plain(Call, DrawGUI)];
    assert Replacement[1..] == tail && tail[1..] == [];
    assert Gather(tail, LabelsOf) == multiset{} + Gather([], LabelsOf);
    assert Gather(tail, BlocksOf) == multiset{} + Gather([], BlocksOf);
  }

  /** The splice of `Replacement` over `[start, end)`, with everything moving from the window head. */
  lemma ReplacementWindow(s: seq<Instruction>, start: int, end: int)
    requires SafeReplaceRange(s, start, end - start, Replacement, None, None).Ok?
    ensures var out := SafeReplaceRange(s, start, end - start, Replacement, None, None).value;
            && out[..start] == s[..start]
            && out[start] == Instruction(Ldarg0, NoOperand, s[start].labels, s[start].blocks)
            && out[start + 1] == Plain(Call, DrawGUI)
            && (forall k :: start + 2 < k < |out| ==> out[k] == s[k - 2 + (end - start)])
            && (start < end && start + 2 < |out| ==> out[start + 2] == s[end])
            && (start == end && start + 2 < |out| ==> out[start + 2] == Plain(s[start].opcode, s[start].operand))
  {
    WindowSurroundings(s, start, end);
    WindowHead(s, start, end);
    if start == end {
      EmptyWindowKeepsBareHead(s, start);
    }
  }

  lemma WindowSurroundings(s: seq<Instruction>, start: int, end: int)
    requires SafeReplaceRange(s, start, end - start, Replacement, None, None).Ok?
    ensures var out := SafeReplaceRange(s, start, end - start, Replacement, None, None).value;
            && out[..start] == s[..start]
            && out[start + 1] == Plain(Call, DrawGUI)
            && (forall k :: start + 2 < k < |out| ==> out[k] == s[k - 2 + (end - start)])
            && (start < end && start + 2 < |out| ==> out[start + 2] == s[end])
  {
    ReplaceKeepsSurroundings(s, start, end - start, Replacement, None, None);
  }

  lemma WindowHead(s: seq<Instruction>, start: int, end: int)
    requires SafeReplaceRange(s, start, end - start, Replacement, None, None).Ok?
    ensures var out := SafeReplaceRange(s, start, end - start, Replacement, None, None).value;
            out[start] == Instruction(Ldarg0, NoOperand, s[start].labels, s[start].blocks)
  {
    var out := SafeReplaceRange(s, start, end - start, Replacement, None, None).value;
    ReplaceKeepsSurroundings(s, start, end - start, Replacement, None, None);
    ReplaceMovesAnchorMetadata(s, start, end - start, Replacement, None, None);
    assert out[start].labels == s[start].labels;
    assert out[start].blocks == s[start].blocks;
  }

  lemma EmptyWindowKeepsBareHead(s: seq<Instruction>, start: int)
    requires SafeReplaceRange(s, start, 0, Replacement, None, None).Ok?
    ensures var out := SafeReplaceRange(s, start, 0, Replacement, None, None).value;
            start + 2 < |out| ==> out[start + 2] == Plain(s[start].opcode, s[start].operand)
  {
    var out := SafeReplaceRange(s, start, 0, Replacement, None, None).value;
    ReplaceMovesAnchorMetadata(s, start, 0, Replacement, None, None);
    assert multiset(out[start + 2].labels) == multiset{};
    assert multiset(out[start + 2].blocks) == multiset{};
  }

  /**
   What the transpiler leaves in place: the code before the window, then
   `ldarg.0` carrying the window head's labels and blocks, `call DrawGUI`,
   and the code after the end anchor: the anchor pair `ldstr "StoragePriority";
   call HighlightOpportunity` lies inside the window and is removed. An empty window keeps its head,
   stripped of its metadata, behind the call.
   */
  lemma TranspilerWindow(s: seq<Instruction>)
    requires FindSequenceIndex(s, StartPattern).Some? && FindSequenceIndex(s, EndPattern).Some?
    requires Transpiler(s).Ok?
    ensures var out := Transpiler(s).value;
            var start := StartIndex(s);
            var end := EndIndex(s);
            && out[..start] == s[..start]
            && out[start] == Instruction(Ldarg0, NoOperand, s[start].labels, s[start].blocks)
            && out[start + 1] == Plain(Call, DrawGUI)
            && (forall k :: start + 2 < k < |out| ==> out[k] == s[k - 2 + (end - start)])
            && (start < end && start + 2 < |out| ==> out[start + 2] == s[end])
            && (start == end && start + 2 < |out| ==> out[start + 2] == Plain(s[start].opcode, s[start].operand))
  {
    ReplacementWindow(s, StartIndex(s), EndIndex(s));
  }

  /**
   Labels are all kept when no instruction of the window other than its
   head carries one: the head's labels move to the `ldarg.0`.
   */
  lemma TranspilerKeepsLabels(s: seq<Instruction>)
    requires FindSequenceIndex(s, StartPattern).Some? && FindSequenceIndex(s, EndPattern).Some?
    requires Transpiler(s).Ok?
    requires StartIndex(s) < EndIndex(s) ==> AllLabels(s[StartIndex(s) + 1..EndIndex(s)]) == multiset{}
    ensures AllLabels(Transpiler(s).value) == AllLabels(s)
  {
    ReplacementCarriesNothing();
    ReplaceConservesLabels(s, StartIndex(s), EndIndex(s) - StartIndex(s), Replacement, None, None);
  }

  /** The label of a priority: its custom name when names are on and it has one, else its decimal text. */
  function StoragePriorityName(settings: ModSettings, priority: byte): (name: string)
    ensures !settings.disableNames && priority in settings.customNames ==> name == settings.customNames[priority]
    ensures settings.disableNames || priority !in settings.customNames ==> name == Show(priority)
  {
    if !settings.disableNames && priority in settings.customNames then settings.customNames[priority]
    else Show(priority)
  }

  /** A label that is not a custom name reads back as the priority it shows. */
  lemma NumericNameReadsBack(settings: ModSettings, priority: byte)
    requires settings.disableNames || priority !in settings.customNames
    ensures ParseByte(StoragePriorityName(settings, priority)) == Some(priority)
  {
    ShowParseByteRoundTrip(priority);
  }

  /** A menu entry: its label and the priority choosing it sets. */
  datatype MenuOption = MenuOption(caption: string, priority: byte)

  /** `ArgumentOutOfRangeException` from a sort value outside the five directions. */
  datatype MenuError = SortOutOfRange

  /** One menu entry: captioned with the priority's name, and choosing it sets that priority. */
  function BuildOption(settings: ModSettings, priority: byte): (r: MenuOption)
    ensures r.priority == priority
    ensures !settings.disableNames && priority in settings.customNames ==> r.caption == settings.customNames[priority]
    ensures settings.disableNames || priority !in settings.customNames ==> ParseByte(r.caption) == Some(priority)
  {
    ShowParseByteRoundTrip(priority);
    MenuOption(StoragePriorityName(settings, priority), priority)
  }

  /** The custom names in the order the menu lists them. */
  function MenuEntries(settings: ModSettings, order: seq<int>): (r: seq<Entry>)
    requires forall i :: 0 <= i < |order| ==> order[i] in settings.customNames
    ensures multiset(r) == multiset(Entries(settings.customNames, order))
    ensures Sorted(settings.sort, r)
  {
    StableSortSorted(settings.sort, Entries(settings.customNames, order));
    StableSort(settings.sort, Entries(settings.customNames, order))
  }

  /** Every menu entry is one of the custom names. */
  lemma MenuEntriesAreNames(settings: ModSettings, order: seq<int>, i: int)
    requires forall i :: 0 <= i < |order| ==> order[i] in settings.customNames
    requires 0 <= i < |MenuEntries(settings, order)|
    ensures var e := MenuEntries(settings, order)[i];
            e.key in settings.customNames && e.name == settings.customNames[e.key]
  {
    var es := Entries(settings.customNames, order);
    var e := MenuEntries(settings, order)[i];
    assert e in multiset(es);
    var j :| 0 <= j < |es| && es[j] == e;
  }

  /** `BuildOptions`: the custom names, sorted by the settings' direction, each as an option for its priority cast to a byte. */
  function BuildOptions(settings: ModSettings, order: seq<int>): (r: Result<seq<MenuOption>, MenuError>)
    requires Enumerates(order, settings.customNames)
    ensures r.Err? <==> settings.sort.Undefined?
    ensures r.Ok? ==> |r.value| == |order|
    ensures r.Ok? ==> forall i :: 0 <= i < |r.value| ==>
              r.value[i].caption == StoragePriorityName(settings, r.value[i].priority)
    ensures r.Ok? ==> forall i :: 0 <= i < |r.value| ==>
              exists k :: k in settings.customNames && r.value[i].priority == ToByte(k)
    ensures r.Ok? ==> |MenuEntries(settings, order)| == |r.value|
                      && forall i :: 0 <= i < |r.value| ==>
                           r.value[i] == BuildOption(settings, ToByte(MenuEntries(settings, order)[i].key))
  {
    if settings.sort.Undefined? then Err(SortOutOfRange)
    else
      var sorted := MenuEntries(settings, order);
      assert |sorted| == |order| by {
        assert |multiset(sorted)| == |multiset(Entries(settings.customNames, order))|;
      }
      var options := seq(|sorted|, i requires 0 <= i < |sorted| => BuildOption(settings, ToByte(sorted[i].key)));
      assert forall i :: 0 <= i < |options| ==> exists k :: k in settings.customNames && options[i].priority == ToByte(k) by {
        forall i | 0 <= i < |options|
          ensures exists k :: k in settings.customNames && options[i].priority == ToByte(k)
        {
          MenuEntriesAreNames(settings, order, i);
        }
      }
      Ok(options)
  }

  /** The numeric directions list priorities by key, when every key is a byte. */
  lemma NumericOptionsOrdered(settings: ModSettings, order: seq<int>)
    requires Enumerates(order, settings.customNames)
    requires settings.sort == NumericDesc || settings.sort == NumericAsc
    requires forall k :: k in settings.customNames ==> 0 <= k < 256
    ensures var options := BuildOptions(settings, order).value;
            forall i, j :: 0 <= i < j < |options| ==>
              if settings.sort == NumericDesc then options[i].priority >= options[j].priority
              else options[i].priority <= options[j].priority
  {
    var sorted := MenuEntries(settings, order);
    var options := BuildOptions(settings, order).value;
    forall i, j | 0 <= i < j < |options|
      ensures if settings.sort == NumericDesc then options[i].priority >= options[j].priority
              else options[i].priority <= options[j].priority
    {
      MenuEntriesAreNames(settings, order, i);
      MenuEntriesAreNames(settings, order, j);
      assert Le(settings.sort, sorted[i], sorted[j]);
    }
  }

  /**
   The alphabetical directions order the captions, when names are shown
   and every key is a byte (with names off, the captions are decimal text
   while the order is still by name).
   */
  lemma AlphaOptionsOrdered(settings: ModSettings, order: seq<int>)
    requires Enumerates(order, settings.customNames)
    requires settings.sort == AlphaAsc || settings.sort == AlphaDesc
    requires !settings.disableNames
    requires forall k :: k in settings.customNames ==> 0 <= k < 256
    ensures var options := BuildOptions(settings, order).value;
            forall i, j :: 0 <= i < j < |options| ==>
              if settings.sort == AlphaAsc then LexLe(options[i].caption, options[j].caption)
              else LexLe(options[j].caption, options[i].caption)
  {
    var sorted := MenuEntries(settings, order);
    var options := BuildOptions(settings, order).value;
    forall i, j | 0 <= i < j < |options|
      ensures if settings.sort == AlphaAsc then LexLe(options[i].caption, options[j].caption)
              else LexLe(options[j].caption, options[i].caption)
    {
      MenuEntriesAreNames(settings, order, i);
      MenuEntriesAreNames(settings, order, j);
      assert Le(settings.sort, sorted[i], sorted[j]);
      assert options[i].caption == sorted[i].name && options[j].caption == sorted[j].name;
    }
  }

  /** `Original` lists the priorities in the dictionary's enumeration order. */
  lemma OriginalOptionsInEnumerationOrder(settings: ModSettings, order: seq<int>)
    requires Enumerates(order, settings.customNames)
    requires settings.sort == Original
    ensures var options := BuildOptions(settings, order).value;
            forall i :: 0 <= i < |options| ==> options[i].priority == ToByte(order[i])
  {
    OriginalKeepsOrder(Entries(settings.customNames, order));
  }

  /** Every custom name whose key is a byte has an option setting that priority. */
  lemma EveryNameHasAnOption(settings: ModSettings, order: seq<int>, k: int)
    requires Enumerates(order, settings.customNames)
    requires !settings.sort.Undefined?
    requires k in settings.customNames && 0 <= k < 256
    ensures exists i :: 0 <= i < |BuildOptions(settings, order).value| && BuildOptions(settings, order).value[i].priority == k
  {
    var es := Entries(settings.customNames, order);
    var sorted := MenuEntries(settings, order);
    var options := BuildOptions(settings, order).value;
    var j :| 0 <= j < |order| && order[j] == k;
    assert es[j] == Entry(k, settings.customNames[k]);
    assert es[j] in multiset(sorted);
    var i :| 0 <= i < |sorted| && sorted[i] == es[j];
    assert options[i].priority == k;
  }

  lemma SortsCriticalFirst(es: seq<Entry>)
    requires es == [Entry(10, "Critical"), Entry(0, "Trash")] || es == [Entry(0, "Trash"), Entry(10, "Critical")]
    ensures StableSort(NumericDesc, es) == [Entry(10, "Critical"), Entry(0, "Trash")]
  {
    var critical := Entry(10, "Critical");
    var trash := Entry(0, "Trash");
    assert es[1..][1..] == [];
    if es[0] == critical {
      assert StableSort(NumericDesc, es[1..]) == [trash];
    } else {
      assert StableSort(NumericDesc, es[1..]) == [critical];
      assert [critical][1..] == [];
      assert Insert(NumericDesc, trash, [critical]) == [critical] + Insert(NumericDesc, trash, []);
    }
  }

  /** Option `i` is built from menu entry `i`: its priority is that entry's key cast to a byte. */
  lemma OptionFollowsEntry(settings: ModSettings, order: seq<int>, i: int)
    requires Enumerates(order, settings.customNames) && !settings.sort.Undefined?
    requires 0 <= i < |order|
    ensures i < |MenuEntries(settings, order)|
    ensures BuildOptions(settings, order).value[i] == BuildOption(settings, ToByte(MenuEntries(settings, order)[i].key))
  {
    var sorted := MenuEntries(settings, order);
    assert |multiset(sorted)| == |multiset(Entries(settings.customNames, order))|;
  }

  lemma CriticalTrashEntries(settings: ModSettings, order: seq<int>)
    requires settings == ModSettings(false, false, map[10 := "Critical", 0 := "Trash"], NumericDesc)
    requires order == [10, 0] || order == [0, 10]
    ensures MenuEntries(settings, order) == [Entry(10, "Critical"), Entry(0, "Trash")]
  {
    var es := Entries(settings.customNames, order);
    assert es[0] == Entry(order[0], settings.customNames[order[0]]);
    assert es[1] == Entry(order[1], settings.customNames[order[1]]);
    assert es == [es[0], es[1]];
    SortsCriticalFirst(es);
  }

  /** Names 10 "Critical" and 0 "Trash", sorted by descending number: "Critical" first, in either enumeration order. */
  lemma CriticalBeforeTrash(order: seq<int>)
    requires order == [10, 0] || order == [0, 10]
    ensures var settings := ModSettings(false, false, map[10 := "Critical", 0 := "Trash"], NumericDesc);
            BuildOptions(settings, order) == Ok([MenuOption("Critical", 10), MenuOption("Trash", 0)])
  {
    var settings := ModSettings(false, false, map[10 := "Critical", 0 := "Trash"], NumericDesc);
    CriticalTrashEntries(settings, order);
    OptionFollowsEntry(settings, order, 0);
    OptionFollowsEntry(settings, order, 1);
    assert ToByte(10) == 10 && ToByte(0) == 0;
    var options := BuildOptions(settings, order).value;
    assert options[0] == MenuOption("Critical", 10);
    assert options[1] == MenuOption("Trash", 0);
    assert |options| == 2;
    assert options == [MenuOption("Critical", 10), MenuOption("Trash", 0)];
  }
}

=== FILE: harmony_extensions.dfy ===
/**
 Metadata-preserving splices of an instruction list (the `SafeInsertRange`,
 `SafeReplaceRange` and `TransferLabelsAndBlocksFrom` extensions). A splice
 replaces a run of instructions and then moves the labels and exception
 blocks of the "anchor", the instruction that stood at the splice index
 beforehand, onto whatever instruction stands there afterwards.

 `CodeInstruction` is a reference type in the source; here instructions are
 values, so "the anchor" is tracked by position: it is gone when the splice
 removes at least one instruction, it sits right after the inserted run when
 nothing is removed, and it is the receiver itself when nothing is removed
 and nothing is inserted.
 */
module HarmonyExtensions {
  import opened Wrappers
  import opened Instructions

  /** `List<T>.Remove`: drops the first occurrence of `x`, if there is one. */
  function RemoveFirst<T(==)>(s: seq<T>, x: T): (r: seq<T>)
    decreases |s|
  {
    if s == [] then [] else if s[0] == x then s[1..] else [s[0]] + RemoveFirst(s[1..], x)
  }

  lemma {:induction false} RemoveFirstCounts<T>(s: seq<T>, x: T)
    requires x in s
    ensures multiset(RemoveFirst(s, x)) + multiset{x} == multiset(s)
    decreases |s|
  {
    assert s == [s[0]] + s[1..];
    if s[0] != x {
      RemoveFirstCounts(s[1..], x);
    }
  }

  /**
   `selector.Where(source.Remove)` enumerated to the end: walks the selector
   in order and, for each entry that `source` still holds, removes one
   occurrence from `source` and yields it. Returns what was yielded and what
   `source` is left with.
   */
  function TakeSelected<T(==)>(source: seq<T>, selector: seq<T>): (r: (seq<T>, seq<T>))
    decreases |selector|
  {
    if selector == [] then ([], source)
    else if selector[0] in source then
      var (taken, rest) := TakeSelected(RemoveFirst(source, selector[0]), selector[1..]);
      ([selector[0]] + taken, rest)
    else
      TakeSelected(source, selector[1..])
  }

  /**
   The items taken are exactly those both the selector names and the source
   holds, each as often as both have it; the rest stays behind.
   */
  lemma {:induction false} TakeSelectedCounts<T>(source: seq<T>, selector: seq<T>)
    ensures multiset(TakeSelected(source, selector).0) == multiset(selector) * multiset(source)
    ensures multiset(TakeSelected(source, selector).1) == multiset(source) - multiset(selector)
    decreases |selector|
  {
    if selector != [] {
      var x := selector[0];
      var tail := selector[1..];
      assert selector == [x] + tail;
      if x in source {
        var source' := RemoveFirst(source, x);
        RemoveFirstCounts(source, x);
        TakeSelectedCounts(source', tail);
        assert multiset(selector) == multiset{x} + multiset(tail);
        assert multiset(source) == multiset{x} + multiset(source');
        assert multiset(TakeSelected(source, selector).0) == multiset{x} + multiset(tail) * multiset(source');
        assert (multiset{x} + multiset(tail)) * (multiset{x} + multiset(source')) == multiset{x} + multiset(tail) * multiset(source');
        assert (multiset{x} + multiset(source')) - (multiset{x} + multiset(tail)) == multiset(source') - multiset(tail);
      } else {
        TakeSelectedCounts(source, tail);
        assert multiset(selector) * multiset(source) == multiset(tail) * multiset(source);
        assert multiset(source) - multiset(selector) == multiset(source) - multiset(tail);
      }
    }
  }

  /**
   Nothing is lost or duplicated: what is taken and what stays behind make up the source.
   */
  lemma TakeSelectedPartitions<T>(source: seq<T>, selector: seq<T>)
    ensures multiset(TakeSelected(source, selector).0) + multiset(TakeSelected(source, selector).1) == multiset(source)
  {
    TakeSelectedCounts(source, selector);
    assert forall x :: (multiset(selector) * multiset(source))[x] + (multiset(source) - multiset(selector))[x] == multiset(source)[x];
  }

  /**
   The self-transfer of a selector (`x.labels.AddRange(sel.Where(x.labels.Remove))`
   on one list): each selected item the list holds is removed and appended
   again, so it moves to the end.
   */
  function RotateSelected<T(==)>(list: seq<T>, selector: seq<T>): (r: seq<T>)
    decreases |selector|
  {
    if selector == [] then list
    else if selector[0] in list then RotateSelected(RemoveFirst(list, selector[0]) + [selector[0]], selector[1..])
    else RotateSelected(list, selector[1..])
  }

  lemma {:induction false} RotateSelectedKeepsItems<T>(list: seq<T>, selector: seq<T>)
    ensures multiset(RotateSelected(list, selector)) == multiset(list)
    decreases |selector|
  {
    if selector != [] {
      var x := selector[0];
      if x in list {
        RemoveFirstCounts(list, x);
        RotateSelectedKeepsItems(RemoveFirst(list, x) + [x], selector[1..]);
      } else {
        RotateSelectedKeepsItems(list, selector[1..]);
      }
    }
  }

  /** Moves one metadata list onto itself. */
  function MigrateWithin<T(==)>(list: seq<T>, selector: Option<seq<T>>): (r: seq<T>)
    ensures selector.None? ==> r == list
    ensures multiset(r) == multiset(list)
  {
    match selector
    case None => list
    case Some(names) =>
      RotateSelectedKeepsItems(list, names);
      RotateSelected(list, names)
  }

  /** What a transfer leaves on its source: nothing without a selector, otherwise what the selector did not name. */
  function Unmoved<T(==)>(from: seq<T>, selector: Option<seq<T>>): (r: multiset<T>) {
    match selector
    case None => multiset{}
    case Some(names) => multiset(from) - multiset(names)
  }

  /**
   `to'` is `to` followed by the items moved over from `from`: all of them,
   in order, without a selector; with one, exactly the selected items `from`
   held, one per selector entry.
   */
  predicate Received<T(==)>(to: seq<T>, from: seq<T>, selector: Option<seq<T>>, to': seq<T>) {
    && |to| <= |to'|
    && to'[..|to|] == to
    && match selector
       case None => to'[|to|..] == from
       case Some(names) => multiset(to'[|to|..]) == multiset(names) * multiset(from)
  }

  /** Moves one metadata list between two distinct instructions; returns the receiver's list and the source's. */
  function Migrate<T(==)>(to: seq<T>, from: seq<T>, selector: Option<seq<T>>): (r: (seq<T>, seq<T>))
    ensures Received(to, from, selector, r.0)
    ensures multiset(r.1) == Unmoved(from, selector)
    ensures multiset(r.0) + multiset(r.1) == multiset(to) + multiset(from)
  {
    match selector
    case None =>
      assert (to + from)[..|to|] == to && (to + from)[|to|..] == from;
      (to + from, [])
    case Some(names) =>
      var (taken, rest) := TakeSelected(from, names);
      TakeSelectedCounts(from, names);
      TakeSelectedPartitions(from, names);
      assert (to + taken)[..|to|] == to && (to + taken)[|to|..] == taken;
      (to + taken, rest)
  }

  /**
   `receiver.TransferLabelsAndBlocksFrom(other, labelsToTransfer, blocksToTransfer)`
   for two distinct instructions: returns the receiver (same operation, more
   metadata) and what is left of `other`. A `None` selector is the source's
   `null`: move everything.
   */
  function TransferLabelsAndBlocksFrom(receiver: Instruction, other: Instruction,
                                       labelsToTransfer: Option<seq<Label>>,
                                       blocksToTransfer: Option<seq<ExceptionBlock>>): (r: (Instruction, Instruction))
    ensures SameCode(r.0, receiver) && SameCode(r.1, other)
    ensures Received(receiver.labels, other.labels, labelsToTransfer, r.0.labels)
    ensures Received(receiver.blocks, other.blocks, blocksToTransfer, r.0.blocks)
    ensures multiset(r.1.labels) == Unmoved(other.labels, labelsToTransfer)
    ensures multiset(r.1.blocks) == Unmoved(other.blocks, blocksToTransfer)
    ensures multiset(r.0.labels) + multiset(r.1.labels) == multiset(receiver.labels) + multiset(other.labels)
    ensures multiset(r.0.blocks) + multiset(r.1.blocks) == multiset(receiver.blocks) + multiset(other.blocks)
  {
    var (labels, otherLabels) := Migrate(receiver.labels, other.labels, labelsToTransfer);
    var (blocks, otherBlocks) := Migrate(receiver.blocks, other.blocks, blocksToTransfer);
    (receiver.(labels := labels, blocks := blocks), other.(labels := otherLabels, blocks := otherBlocks))
  }

  /**
   The same call when receiver and source are one instruction: `PopAll`
   empties the list and `AddRange` puts the same items back, so without a
   selector nothing changes; with one, the selected items move to the end.
   */
  function TransferWithin(x: Instruction, labelsToTransfer: Option<seq<Label>>,
                          blocksToTransfer: Option<seq<ExceptionBlock>>): (r: Instruction)
    ensures SameCode(r, x)
    ensures labelsToTransfer.None? ==> r.labels == x.labels
    ensures blocksToTransfer.None? ==> r.blocks == x.blocks
    ensures multiset(r.labels) == multiset(x.labels) && multiset(r.blocks) == multiset(x.blocks)
  {
    var labels := MigrateWithin(x.labels, labelsToTransfer);
    var blocks := MigrateWithin(x.blocks, blocksToTransfer);
    x.(labels := labels, blocks := blocks)
  }

  /** The exceptions a splice raises. */
  datatype SpliceError =
    | IndexOutOfRange   // `instructions[insertionIndex]` before the splice
    | RangeOutOfRange   // the list refuses to remove `count` instructions at `insertionIndex`
    | NoSuccessor       // `instructions[insertionIndex]` after the splice: the list now ends before it

  /** The list with `count` instructions at `index` replaced by `inserted`, before any metadata moves. */
  function Splice(s: seq<Instruction>, index: nat, count: nat, inserted: seq<Instruction>): (r: seq<Instruction>)
    requires index + count <= |s|
  {
    s[..index] + inserted + s[index + count..]
  }

  /**
   The transfer that follows the list operation: the instruction now at
   `index` receives the anchor's metadata. When the anchor was kept (nothing
   removed) it sits `insertedCount` places further on, and is the receiver
   itself when nothing was inserted either.
   */
  function MoveAnchorMetadata(spliced: seq<Instruction>, index: nat, anchor: Instruction, anchorKept: bool,
                              insertedCount: nat, labelsToTransfer: Option<seq<Label>>,
                              blocksToTransfer: Option<seq<ExceptionBlock>>): (r: seq<Instruction>)
    requires index + (if anchorKept then insertedCount else 0) < |spliced|
    ensures |r| == |spliced|
    ensures forall k :: 0 <= k < |r| && k != index && !(anchorKept && k == index + insertedCount) ==> r[k] == spliced[k]
    ensures SameCode(r[index], spliced[index])
    ensures !(anchorKept && insertedCount > 0) ==> r == spliced[index := r[index]]
    ensures anchorKept && insertedCount > 0 ==>
              r == spliced[index := r[index]][index + insertedCount := r[index + insertedCount]]
  {
    if anchorKept && insertedCount == 0 then
      spliced[index := TransferWithin(spliced[index], labelsToTransfer, blocksToTransfer)]
    else
      var (receiver, rest) := TransferLabelsAndBlocksFrom(spliced[index], anchor, labelsToTransfer, blocksToTransfer);
      if anchorKept then spliced[index := receiver][index + insertedCount := rest] else spliced[index := receiver]
  }

  /** Where the anchor's labels and blocks go: onto the receiver, and what the selectors leave stays on a kept anchor. */
  lemma AnchorMetadataMoves(spliced: seq<Instruction>, index: nat, anchor: Instruction, anchorKept: bool,
                            insertedCount: nat, labelsToTransfer: Option<seq<Label>>,
                            blocksToTransfer: Option<seq<ExceptionBlock>>)
    requires index + (if anchorKept then insertedCount else 0) < |spliced|
    ensures var r := MoveAnchorMetadata(spliced, index, anchor, anchorKept, insertedCount, labelsToTransfer, blocksToTransfer);
            !(anchorKept && insertedCount == 0) ==>
              && Received(spliced[index].labels, anchor.labels, labelsToTransfer, r[index].labels)
              && Received(spliced[index].blocks, anchor.blocks, blocksToTransfer, r[index].blocks)
              && multiset(r[index].labels) + Unmoved(anchor.labels, labelsToTransfer)
                 == multiset(spliced[index].labels) + multiset(anchor.labels)
              && multiset(r[index].blocks) + Unmoved(anchor.blocks, blocksToTransfer)
                 == multiset(spliced[index].blocks) + multiset(anchor.blocks)
    ensures var r := MoveAnchorMetadata(spliced, index, anchor, anchorKept, insertedCount, labelsToTransfer, blocksToTransfer);
            anchorKept && insertedCount > 0 ==>
              && SameCode(r[index + insertedCount], anchor)
              && multiset(r[index + insertedCount].labels) == Unmoved(anchor.labels, labelsToTransfer)
              && multiset(r[index + insertedCount].blocks) == Unmoved(anchor.blocks, blocksToTransfer)
    ensures var r := MoveAnchorMetadata(spliced, index, anchor, anchorKept, insertedCount, labelsToTransfer, blocksToTransfer);
            anchorKept && insertedCount == 0 ==>
              && multiset(r[index].labels) == multiset(spliced[index].labels)
              && multiset(r[index].blocks) == multiset(spliced[index].blocks)
              && (labelsToTransfer.None? ==> r[index].labels == spliced[index].labels)
              && (blocksToTransfer.None? ==> r[index].blocks == spliced[index].blocks)
  {
    var r := MoveAnchorMetadata(spliced, index, anchor, anchorKept, insertedCount, labelsToTransfer, blocksToTransfer);
    if anchorKept && insertedCount == 0 {
      assert r[index] == TransferWithin(spliced[index], labelsToTransfer, blocksToTransfer);
    } else {
      var (receiver, rest) := TransferLabelsAndBlocksFrom(spliced[index], anchor, labelsToTransfer, blocksToTransfer);
      assert r[index] == receiver;
      if anchorKept {
        assert r[index + insertedCount] == rest;
      }
    }
  }

  /**
   `instructions.SafeReplaceRange(insertionIndex, count, newInstructions, …)`:
   capture the anchor, replace `count` instructions with the new ones, then
   move the anchor's labels and blocks onto the instruction now at the index.
   */
  function SafeReplaceRange(s: seq<Instruction>, insertionIndex: int, count: int, inserted: seq<Instruction>,
                            labelsToTransfer: Option<seq<Label>>,
                            blocksToTransfer: Option<seq<ExceptionBlock>>): (r: Result<seq<Instruction>, SpliceError>)
    ensures r == Err(IndexOutOfRange) <==> !(0 <= insertionIndex < |s|)
    ensures r == Err(RangeOutOfRange) <==> 0 <= insertionIndex < |s| && (count < 0 || insertionIndex + count > |s|)
    ensures r.Ok? <==> 0 <= insertionIndex < |s| && 0 <= count && insertionIndex + count <= |s|
                       && insertionIndex < |s| - count + |inserted|
    ensures r.Ok? ==> |r.value| == |s| - count + |inserted|
  {
    if !(0 <= insertionIndex < |s|) then Err(IndexOutOfRange)
    else if count < 0 || insertionIndex + count > |s| then Err(RangeOutOfRange)
    else
      var spliced := Splice(s, insertionIndex, count, inserted);
      if insertionIndex >= |spliced| then Err(NoSuccessor)
      else
        Ok(MoveAnchorMetadata(spliced, insertionIndex, s[insertionIndex], count == 0, |inserted|,
                              labelsToTransfer, blocksToTransfer))
  }

  /**
   `instructions.SafeInsertRange(insertionIndex, newInstructions, …)`: the
   anchor is kept and ends up right after the inserted run.
   */
  function SafeInsertRange(s: seq<Instruction>, insertionIndex: int, inserted: seq<Instruction>,
                           labelsToTransfer: Option<seq<Label>>,
                           blocksToTransfer: Option<seq<ExceptionBlock>>): (r: Result<seq<Instruction>, SpliceError>)
    ensures r.Err? <==> !(0 <= insertionIndex < |s|)
    ensures r.Err? ==> r.error == IndexOutOfRange
    ensures r.Ok? ==> |r.value| == |s| + |inserted|
  {
    if !(0 <= insertionIndex < |s|) then Err(IndexOutOfRange)
    else
      Ok(MoveAnchorMetadata(s[..insertionIndex] + inserted + s[insertionIndex..], insertionIndex, s[insertionIndex],
                            true, |inserted|, labelsToTransfer, blocksToTransfer))
  }

  /** Inserting is replacing nothing: every law of `SafeReplaceRange` with `count == 0` holds for inserts. */
  lemma InsertIsReplaceOfNothing(s: seq<Instruction>, insertionIndex: int, inserted: seq<Instruction>,
                                 labelsToTransfer: Option<seq<Label>>, blocksToTransfer: Option<seq<ExceptionBlock>>)
    ensures SafeInsertRange(s, insertionIndex, inserted, labelsToTransfer, blocksToTransfer)
         == SafeReplaceRange(s, insertionIndex, 0, inserted, labelsToTransfer, blocksToTransfer)
  {
    if 0 <= insertionIndex < |s| {
      assert s[insertionIndex + 0..] == s[insertionIndex..];
    }
  }

  /** Instructions before the index, the new run after its head, and everything after the removed run are in place. */
  lemma ReplaceKeepsSurroundings(s: seq<Instruction>, insertionIndex: int, count: int, inserted: seq<Instruction>,
                                 labelsToTransfer: Option<seq<Label>>, blocksToTransfer: Option<seq<ExceptionBlock>>)
    requires SafeReplaceRange(s, insertionIndex, count, inserted, labelsToTransfer, blocksToTransfer).Ok?
    ensures var out := SafeReplaceRange(s, insertionIndex, count, inserted, labelsToTransfer, blocksToTransfer).value;
            && out[..insertionIndex] == s[..insertionIndex]
            && (forall k :: 0 < k < |inserted| ==> out[insertionIndex + k] == inserted[k])
            && (forall k :: insertionIndex + |inserted| < k < |out| ==> out[k] == s[k - |inserted| + count])
            && (count > 0 && |inserted| > 0 && insertionIndex + |inserted| < |out| ==>
                  out[insertionIndex + |inserted|] == s[insertionIndex + count])
            && SameCode(out[insertionIndex], if |inserted| > 0 then inserted[0] else s[insertionIndex + count])
  {
    var out := SafeReplaceRange(s, insertionIndex, count, inserted, labelsToTransfer, blocksToTransfer).value;
    SpliceLayout(s, insertionIndex, count, inserted, out);
  }

  /** The layout of a splice whose metadata moves touched only the receiver and, when nothing was removed, the anchor. */
  lemma SpliceLayout(s: seq<Instruction>, i: nat, c: nat, inserted: seq<Instruction>, out: seq<Instruction>)
    requires i + c <= |s| && |out| == |Splice(s, i, c, inserted)| && i < |out|
    requires forall k :: 0 <= k < |out| && k != i && !(c == 0 && k == i + |inserted|) ==> out[k] == Splice(s, i, c, inserted)[k]
    requires SameCode(out[i], Splice(s, i, c, inserted)[i])
    ensures out[..i] == s[..i]
    ensures forall k :: 0 < k < |inserted| ==> out[i + k] == inserted[k]
    ensures forall k :: i + |inserted| < k < |out| ==> out[k] == s[k - |inserted| + c]
    ensures c > 0 && |inserted| > 0 && i + |inserted| < |out| ==> out[i + |inserted|] == s[i + c]
    ensures SameCode(out[i], if |inserted| > 0 then inserted[0] else s[i + c])
  {
    var spliced := Splice(s, i, c, inserted);
    forall k | 0 <= k < i
      ensures out[k] == s[k]
    {
      assert out[k] == spliced[k];
    }
  }

  /**
   The receiver at the index gets the anchor's labels and blocks after its
   own (all of them, or the selected ones the anchor held); an anchor that
   stays in the list keeps only what the selectors did not name.
   */
  lemma ReplaceMovesAnchorMetadata(s: seq<Instruction>, insertionIndex: int, count: int, inserted: seq<Instruction>,
                                   labelsToTransfer: Option<seq<Label>>, blocksToTransfer: Option<seq<ExceptionBlock>>)
    requires SafeReplaceRange(s, insertionIndex, count, inserted, labelsToTransfer, blocksToTransfer).Ok?
    ensures var out := SafeReplaceRange(s, insertionIndex, count, inserted, labelsToTransfer, blocksToTransfer).value;
            var anchor := s[insertionIndex];
            (count > 0 || |inserted| > 0) ==>
              var receiver := if |inserted| > 0 then inserted[0] else s[insertionIndex + count];
              && Received(receiver.labels, anchor.labels, labelsToTransfer, out[insertionIndex].labels)
              && Received(receiver.blocks, anchor.blocks, blocksToTransfer, out[insertionIndex].blocks)
    ensures var out := SafeReplaceRange(s, insertionIndex, count, inserted, labelsToTransfer, blocksToTransfer).value;
            var anchor := s[insertionIndex];
            count == 0 && |inserted| > 0 ==>
              && SameCode(out[insertionIndex + |inserted|], anchor)
              && multiset(out[insertionIndex + |inserted|].labels) == Unmoved(anchor.labels, labelsToTransfer)
              && multiset(out[insertionIndex + |inserted|].blocks) == Unmoved(anchor.blocks, blocksToTransfer)
  {
    var spliced := Splice(s, insertionIndex, count, inserted);
    AnchorMetadataMoves(spliced, insertionIndex, s[insertionIndex], count == 0, |inserted|,
                        labelsToTransfer, blocksToTransfer);
  }

  /** Inserting an empty run, moving everything, leaves the list exactly as it was. */
  lemma EmptyInsertChangesNothing(s: seq<Instruction>, insertionIndex: int)
    requires 0 <= insertionIndex < |s|
    ensures SafeInsertRange(s, insertionIndex, [], None, None) == Ok(s)
  {
    assert s[..insertionIndex] + [] + s[insertionIndex..] == s;
    var x := s[insertionIndex];
    assert TransferWithin(x, None, None) == x;
    assert s[insertionIndex := x] == s;
  }

  /** Counting one kind of metadata across a splice whose receiver and anchor exchanged items as described. */
  lemma {:induction false} GatherAfterMove<T>(s: seq<Instruction>, i: nat, c: nat, inserted: seq<Instruction>,
                                              out: seq<Instruction>, field: Instruction -> seq<T>, unmoved: multiset<T>)
    requires i < |s| && i + c <= |s|
    requires i < |Splice(s, i, c, inserted)| == |out|
    requires !(c == 0 && |inserted| > 0) ==> out == Splice(s, i, c, inserted)[i := out[i]]
    requires c == 0 && |inserted| > 0 ==>
               out == Splice(s, i, c, inserted)[i := out[i]][i + |inserted| := out[i + |inserted|]]
    requires c == 0 && |inserted| == 0 ==> multiset(field(out[i])) == multiset(field(s[i]))
    requires c == 0 && |inserted| > 0 ==>
               multiset(field(out[i])) + multiset(field(out[i + |inserted|]))
               == multiset(field(Splice(s, i, c, inserted)[i])) + multiset(field(s[i]))
    requires c > 0 ==> multiset(field(out[i])) + unmoved == multiset(field(Splice(s, i, c, inserted)[i])) + multiset(field(s[i]))
    ensures Gather(out, field) + (if c == 0 then multiset{} else Gather(s[i + 1..i + c], field) + unmoved)
            == Gather(s, field) + Gather(inserted, field)
  {
    var spliced := Splice(s, i, c, inserted);
    GatherSplice(s, i, c, inserted, field);
    if c == 0 {
      assert s[i..i + c] == [];
      if |inserted| == 0 {
        assert spliced == s;
        GatherAfterSelfMove(s, i, out[i], field);
      } else {
        assert spliced[i + |inserted|] == s[i];
        GatherAfterKeptAnchor(spliced, i, |inserted|, out[i], out[i + |inserted|], field, s[i]);
      }
      var g := Gather(out, field);
      assert Gather(spliced, field) + Gather(s[i..i + c], field) == g + multiset{};
    } else {
      assert out == spliced[i := out[i]];
      GatherAfterRemovedAnchor(s, i, c, spliced, out[i], field, unmoved);
    }
  }

  /** The receiver was the anchor itself and kept its items. */
  lemma GatherAfterSelfMove<T>(s: seq<Instruction>, i: nat, x: Instruction, field: Instruction -> seq<T>)
    requires i < |s|
    requires multiset(field(x)) == multiset(field(s[i]))
    ensures Gather(s[i := x], field) == Gather(s, field)
  {
    var out := s[i := x];
    GatherUpdate(s, i, x, field);
    Cancel(Gather(out, field), Gather(s, field), multiset(field(s[i])));
  }

  /** The anchor, kept `n` places after the receiver, shared its items with the receiver. */
  lemma GatherAfterKeptAnchor<T>(spliced: seq<Instruction>, i: nat, n: nat, x0: Instruction, x1: Instruction,
                                 field: Instruction -> seq<T>, anchor: Instruction)
    requires 0 < n && i + n < |spliced| && spliced[i + n] == anchor
    requires multiset(field(x0)) + multiset(field(x1)) == multiset(field(spliced[i])) + multiset(field(anchor))
    ensures Gather(spliced[i := x0][i + n := x1], field) == Gather(spliced, field)
  {
    var mid := spliced[i := x0];
    var out := mid[i + n := x1];
    assert out[i] == x0 && out[i + n] == x1;
    var head, a := multiset(field(spliced[i])), multiset(field(anchor));
    assert mid[i + n] == anchor;
    GatherUpdate(spliced, i, out[i], field);
    GatherUpdate(mid, i + n, out[i + n], field);
    var o0, o1 := multiset(field(out[i])), multiset(field(out[i + n]));
    calc {
      Gather(out, field) + (a + head);
      (Gather(out, field) + a) + head;
      (Gather(mid, field) + o1) + head;
      (Gather(mid, field) + head) + o1;
      (Gather(spliced, field) + o0) + o1;
      Gather(spliced, field) + (o0 + o1);
      Gather(spliced, field) + (a + head);
    }
    Cancel(Gather(out, field), Gather(spliced, field), a + head);
  }

  /** The anchor was removed with `c - 1` instructions after it; the receiver took what the selector named. */
  lemma GatherAfterRemovedAnchor<T>(s: seq<Instruction>, i: nat, c: nat, spliced: seq<Instruction>, x: Instruction,
                                    field: Instruction -> seq<T>, unmoved: multiset<T>)
    requires 0 < c && i + c <= |s| && i < |spliced|
    requires multiset(field(x)) + unmoved == multiset(field(spliced[i])) + multiset(field(s[i]))
    ensures Gather(spliced[i := x], field) + (Gather(s[i + 1..i + c], field) + unmoved) == Gather(spliced, field) + Gather(s[i..i + c], field)
  {
    var out := spliced[i := x];
    assert out[i] == x;
    var removed := s[i..i + c];
    var head := multiset(field(spliced[i]));
    var anchor := multiset(field(s[i]));
    GatherUpdate(spliced, i, out[i], field);
    assert removed == [s[i]] + s[i + 1..i + c];
    GatherAppend([s[i]], s[i + 1..i + c], field);
    assert Gather([s[i]], field) == anchor by {
      assert [s[i]][1..] == [];
    }
    var o0 := multiset(field(out[i]));
    var rest := Gather(s[i + 1..i + c], field);
    calc {
      (Gather(out, field) + (rest + unmoved)) + head;
      (Gather(out, field) + head) + (rest + unmoved);
      (Gather(spliced, field) + o0) + (rest + unmoved);
      Gather(spliced, field) + rest + (o0 + unmoved);
      Gather(spliced, field) + rest + (head + anchor);
      (Gather(spliced, field) + (anchor + rest)) + head;
      (Gather(spliced, field) + Gather(removed, field)) + head;
    }
    Cancel(Gather(out, field) + (rest + unmoved), Gather(spliced, field) + Gather(removed, field), head);
  }

  /** A splice trades the removed run's metadata for the inserted run's. */
  lemma GatherSplice<T>(s: seq<Instruction>, i: nat, c: nat, inserted: seq<Instruction>, field: Instruction -> seq<T>)
    requires i + c <= |s|
    ensures Gather(Splice(s, i, c, inserted), field) + Gather(s[i..i + c], field) == Gather(s, field) + Gather(inserted, field)
  {
    var before, removed, after := s[..i], s[i..i + c], s[i + c..];
    assert s == before + removed + after;
    GatherAppend(before + removed, after, field);
    GatherAppend(before, removed, field);
    GatherAppend(before + inserted, after, field);
    GatherAppend(before, inserted, field);
  }

  lemma Cancel<T>(a: multiset<T>, b: multiset<T>, x: multiset<T>)
    requires a + x == b + x
    ensures a == b
  {
    forall e
      ensures a[e] == b[e]
    {
      assert (a + x)[e] == (b + x)[e];
    }
  }

  /**
   Labels a replace loses: those on the removed instructions after the
   anchor and, when the anchor is removed as well, those on it that the
   selector did not name.
   */
  function LostLabels(s: seq<Instruction>, i: nat, c: nat, labelsToTransfer: Option<seq<Label>>): (r: multiset<Label>)
    requires i < |s| && i + c <= |s|
  {
    if c == 0 then multiset{} else AllLabels(s[i + 1..i + c]) + Unmoved(s[i].labels, labelsToTransfer)
  }

  /** Exception blocks a replace loses, by the same rule as `LostLabels`. */
  function LostBlocks(s: seq<Instruction>, i: nat, c: nat, blocksToTransfer: Option<seq<ExceptionBlock>>): (r: multiset<ExceptionBlock>)
    requires i < |s| && i + c <= |s|
  {
    if c == 0 then multiset{} else AllBlocks(s[i + 1..i + c]) + Unmoved(s[i].blocks, blocksToTransfer)
  }

  /** Every label of the result was in the list or the inserted run, and every one that is not in the result was lost as `LostLabels` says. */
  lemma ReplaceAccountsForLabels(s: seq<Instruction>, insertionIndex: int, count: int, inserted: seq<Instruction>,
                                 labelsToTransfer: Option<seq<Label>>, blocksToTransfer: Option<seq<ExceptionBlock>>)
    requires SafeReplaceRange(s, insertionIndex, count, inserted, labelsToTransfer, blocksToTransfer).Ok?
    ensures AllLabels(SafeReplaceRange(s, insertionIndex, count, inserted, labelsToTransfer, blocksToTransfer).value)
            + LostLabels(s, insertionIndex, count, labelsToTransfer)
            == AllLabels(s) + AllLabels(inserted)
  {
    var out := SafeReplaceRange(s, insertionIndex, count, inserted, labelsToTransfer, blocksToTransfer).value;
    var i: nat, c: nat, n := insertionIndex, count, |inserted|;
    var spliced := Splice(s, i, c, inserted);
    AnchorMetadataMoves(spliced, i, s[i], c == 0, n, labelsToTransfer, blocksToTransfer);
    var unmoved := Unmoved(s[i].labels, labelsToTransfer);
    GatherAfterMove(s, i, c, inserted, out, LabelsOf, unmoved);
  }

  /** The same accounting for exception blocks. */
  lemma ReplaceAccountsForBlocks(s: seq<Instruction>, insertionIndex: int, count: int, inserted: seq<Instruction>,
                                 labelsToTransfer: Option<seq<Label>>, blocksToTransfer: Option<seq<ExceptionBlock>>)
    requires SafeReplaceRange(s, insertionIndex, count, inserted, labelsToTransfer, blocksToTransfer).Ok?
    ensures AllBlocks(SafeReplaceRange(s, insertionIndex, count, inserted, labelsToTransfer, blocksToTransfer).value)
            + LostBlocks(s, insertionIndex, count, blocksToTransfer)
            == AllBlocks(s) + AllBlocks(inserted)
  {
    var out := SafeReplaceRange(s, insertionIndex, count, inserted, labelsToTransfer, blocksToTransfer).value;
    var i: nat, c: nat, n := insertionIndex, count, |inserted|;
    var spliced := Splice(s, i, c, inserted);
    AnchorMetadataMoves(spliced, i, s[i], c == 0, n, labelsToTransfer, blocksToTransfer);
    var unmoved := Unmoved(s[i].blocks, blocksToTransfer);
    GatherAfterMove(s, i, c, inserted, out, BlocksOf, unmoved);
  }

  /**
   Conservation of labels: when the inserted run carries none and nothing
   removed can be lost (the removed instructions after the anchor carry
   none, and a removed anchor has all its labels moved), the result holds
   exactly the labels the list held.
   */
  lemma ReplaceConservesLabels(s: seq<Instruction>, insertionIndex: int, count: int, inserted: seq<Instruction>,
                               labelsToTransfer: Option<seq<Label>>, blocksToTransfer: Option<seq<ExceptionBlock>>)
    requires SafeReplaceRange(s, insertionIndex, count, inserted, labelsToTransfer, blocksToTransfer).Ok?
    requires AllLabels(inserted) == multiset{}
    requires count > 0 ==> AllLabels(s[insertionIndex + 1..insertionIndex + count]) == multiset{}
                           && Unmoved(s[insertionIndex].labels, labelsToTransfer) == multiset{}
    ensures AllLabels(SafeReplaceRange(s, insertionIndex, count, inserted, labelsToTransfer, blocksToTransfer).value)
            == AllLabels(s)
  {
    var out := SafeReplaceRange(s, insertionIndex, count, inserted, labelsToTransfer, blocksToTransfer).value;
    ReplaceAccountsForLabels(s, insertionIndex, count, inserted, labelsToTransfer, blocksToTransfer);
    assert LostLabels(s, insertionIndex, count, labelsToTransfer) == multiset{};
    // Both sides of the accounting equation carry an empty extra term.
    assert AllLabels(out) + multiset{} == AllLabels(out) && AllLabels(s) + multiset{} == AllLabels(s);
  }

  /** Conservation of exception blocks, under the same conditions. */
  lemma ReplaceConservesBlocks(s: seq<Instruction>, insertionIndex: int, count: int, inserted: seq<Instruction>,
                               labelsToTransfer: Option<seq<Label>>, blocksToTransfer: Option<seq<ExceptionBlock>>)
    requires SafeReplaceRange(s, insertionIndex, count, inserted, labelsToTransfer, blocksToTransfer).Ok?
    requires AllBlocks(inserted) == multiset{}
    requires count > 0 ==> AllBlocks(s[insertionIndex + 1..insertionIndex + count]) == multiset{}
                           && Unmoved(s[insertionIndex].blocks, blocksToTransfer) == multiset{}
    ensures AllBlocks(SafeReplaceRange(s, insertionIndex, count, inserted, labelsToTransfer, blocksToTransfer).value)
            == AllBlocks(s)
  {
    var out := SafeReplaceRange(s, insertionIndex, count, inserted, labelsToTransfer, blocksToTransfer).value;
    ReplaceAccountsForBlocks(s, insertionIndex, count, inserted, labelsToTransfer, blocksToTransfer);
    assert LostBlocks(s, insertionIndex, count, blocksToTransfer) == multiset{};
    // Both sides of the accounting equation carry an empty extra term.
    assert AllBlocks(out) + multiset{} == AllBlocks(out) && AllBlocks(s) + multiset{} == AllBlocks(s);
  }

  /**
   Replacing `[A, B, C, D, E]` at 2 for 2 with `[X, Y]`, where `C` carries
   label 1 and block 1: the result is `[A, B, X, Y, E]`, `X` carries both,
   and no other instruction carries anything.
   */
  lemma ReplaceMovesAnchorLabelToNewHead()
    ensures var c := Instruction(OtherOpCode(2), NoOperand, [Label(1)], [ExceptionBlock(1)]);
            var s := [Plain(OtherOpCode(0), NoOperand), Plain(OtherOpCode(1), NoOperand), c,
                      Plain(OtherOpCode(3), NoOperand), Plain(OtherOpCode(4), NoOperand)];
            SafeReplaceRange(s, 2, 2, [Plain(OtherOpCode(5), NoOperand), Plain(OtherOpCode(6), NoOperand)], None, None)
            == Ok([s[0], s[1], Instruction(OtherOpCode(5), NoOperand, [Label(1)], [ExceptionBlock(1)]),
                   Plain(OtherOpCode(6), NoOperand), s[4]])
  {
    var c := Instruction(OtherOpCode(2), NoOperand, [Label(1)], [ExceptionBlock(1)]);
    var s := [Plain(OtherOpCode(0), NoOperand), Plain(OtherOpCode(1), NoOperand), c,
              Plain(OtherOpCode(3), NoOperand), Plain(OtherOpCode(4), NoOperand)];
    var ins := [Plain(OtherOpCode(5), NoOperand), Plain(OtherOpCode(6), NoOperand)];
    assert Splice(s, 2, 2, ins) == [s[0], s[1], ins[0], ins[1], s[4]];
    var moved := TransferLabelsAndBlocksFrom(ins[0], c, None, None);
    assert moved.0.labels == [] + [Label(1)] == [Label(1)];
    assert moved.0.blocks == [] + [ExceptionBlock(1)] == [ExceptionBlock(1)];
    assert moved.0 == Instruction(OtherOpCode(5), NoOperand, [Label(1)], [ExceptionBlock(1)]);
    var spliced := Splice(s, 2, 2, ins);
    assert MoveAnchorMetadata(spliced, 2, c, false, 2, None, None) == spliced[2 := moved.0];
    assert SafeReplaceRange(s, 2, 2, ins, None, None) == Ok(spliced[2 := moved.0]);
    assert spliced[2 := moved.0] == [s[0], s[1], moved.0, ins[1], s[4]];
  }

  /**
   The same replace when `D`, a removed instruction other than the anchor,
   carries label 2: no instruction of the result carries label 2 any more.
   */
  lemma ReplaceDropsLabelOfRemovedSuccessor()
    ensures var s := [Plain(OtherOpCode(0), NoOperand), Plain(OtherOpCode(1), NoOperand),
                      Instruction(OtherOpCode(2), NoOperand, [Label(1)], []),
                      Instruction(OtherOpCode(3), NoOperand, [Label(2)], []), Plain(OtherOpCode(4), NoOperand)];
            var out := SafeReplaceRange(s, 2, 2, [Plain(OtherOpCode(5), NoOperand), Plain(OtherOpCode(6), NoOperand)], None, None);
            && out.Ok?
            && Label(2) in s[3].labels
            && forall k :: 0 <= k < |out.value| ==> Label(2) !in out.value[k].labels
  {
    var s := [Plain(OtherOpCode(0), NoOperand), Plain(OtherOpCode(1), NoOperand),
              Instruction(OtherOpCode(2), NoOperand, [Label(1)], []),
              Instruction(OtherOpCode(3), NoOperand, [Label(2)], []), Plain(OtherOpCode(4), NoOperand)];
    var ins := [Plain(OtherOpCode(5), NoOperand), Plain(OtherOpCode(6), NoOperand)];
    assert Splice(s, 2, 2, ins) == [s[0], s[1], ins[0], ins[1], s[4]];
    var out := SafeReplaceRange(s, 2, 2, ins, None, None).value;
    assert out == [s[0], s[1], Instruction(OtherOpCode(5), NoOperand, [Label(1)], []), ins[1], s[4]];
  }
}

=== FILE: instructions.dfy ===
/**
 The decoded form of one IL instruction (Harmony's `CodeInstruction`): an
 opcode, an operand, and the two metadata lists attached to it, the branch
 labels that name it as a jump target and the exception-block markers that
 open or close a protected region at it. Opcodes and operands are opaque
 tokens; only the ones the transpiler inspects or emits are named.
 */
module Instructions {

  datatype OpCode = Ldarg0 | Ldstr | Call | Callvirt | Brfalse | OtherOpCode(code: nat)

  /** A method reference is identified by name: the reflection lookups that produce it are not modelled. */
  datatype Operand = NoOperand | MethodRef(name: string) | StringConst(text: string) | OtherOperand(id: nat)

  /** `System.Reflection.Emit.Label`: an opaque branch-target token. */
  datatype Label = Label(id: nat)

  /** Harmony's `ExceptionBlock`: an opaque protected-region boundary token. */
  datatype ExceptionBlock = ExceptionBlock(id: nat)

  datatype Instruction = Instruction(opcode: OpCode, operand: Operand, labels: seq<Label>, blocks: seq<ExceptionBlock>)

  /** `new CodeInstruction(opcode, operand)`: a fresh instruction carries no metadata. */
  function Plain(opcode: OpCode, operand: Operand): (r: Instruction) {
    Instruction(opcode, operand, [], [])
  }

  /** The two instructions execute the same operation, whatever metadata they carry. */
  predicate SameCode(a: Instruction, b: Instruction) {
    a.opcode == b.opcode && a.operand == b.operand
  }

  function LabelsOf(x: Instruction): (r: seq<Label>) {
    x.labels
  }

  function BlocksOf(x: Instruction): (r: seq<ExceptionBlock>) {
    x.blocks
  }

  /** Every item one metadata list of `s` holds, counted with multiplicity. */
  function Gather<T>(s: seq<Instruction>, field: Instruction -> seq<T>): (r: multiset<T>)
    decreases |s|
  {
    if s == [] then multiset{} else multiset(field(s[0])) + Gather(s[1..], field)
  }

  function AllLabels(s: seq<Instruction>): (r: multiset<Label>) {
    Gather(s, LabelsOf)
  }

  function AllBlocks(s: seq<Instruction>): (r: multiset<ExceptionBlock>) {
    Gather(s, BlocksOf)
  }

  lemma {:induction false} GatherAppend<T>(a: seq<Instruction>, b: seq<Instruction>, field: Instruction -> seq<T>)
    ensures Gather(a + b, field) == Gather(a, field) + Gather(b, field)
    decreases |a|
  {
    if a != [] {
      assert (a + b)[0] == a[0] && (a + b)[1..] == a[1..] + b;
      GatherAppend(a[1..], b, field);
      assert Gather(a + b, field) == multiset(field(a[0])) + Gather(a[1..] + b, field);
    } else {
      assert a + b == b;
    }
  }

  /** Replacing one instruction swaps its metadata for the new one's and leaves the rest counted as before. */
  lemma {:induction false} GatherUpdate<T>(s: seq<Instruction>, k: nat, x: Instruction, field: Instruction -> seq<T>)
    requires k < |s|
    ensures Gather(s[k := x], field) + multiset(field(s[k])) == Gather(s, field) + multiset(field(x))
    decreases k
  {
    if k > 0 {
      var t := s[1..];
      assert s[k := x][0] == s[0] && s[k := x][1..] == t[k - 1 := x];
      assert t[k - 1] == s[k];
      GatherUpdate(t, k - 1, x, field);
      calc {
        Gather(s[k := x], field) + multiset(field(s[k]));
        multiset(field(s[0])) + Gather(t[k - 1 := x], field) + multiset(field(t[k - 1]));
        multiset(field(s[0])) + (Gather(t[k - 1 := x], field) + multiset(field(t[k - 1])));
        multiset(field(s[0])) + (Gather(t, field) + multiset(field(x)));
        multiset(field(s[0])) + Gather(t, field) + multiset(field(x));
        Gather(s, field) + multiset(field(x));
      }
    } else {
      assert s[k := x][1..] == s[1..];
    }
  }
}

=== FILE: menu_order.dfy ===
/**
 The order in which `BuildOptions` lists the custom names. Each sort
 direction is a total preorder on entries; `OrderBy` and
 `OrderByDescending` are stable sorts, so entries the order cannot tell
 apart keep their enumeration order. `Original` ranks every pair equal,
 and so keeps the enumeration order whole.
 */
module MenuOrder {
  import opened Text
  import opened NumericStoragePrioritySettings

  /** `a` may be listed before `b` under `dir`. `Undefined` ranks like `Original`; the menu rejects it before sorting. */
  predicate Le(dir: SortDirection, a: Entry, b: Entry) {
    match dir
    case NumericDesc => a.key >= b.key
    case NumericAsc => a.key <= b.key
    case AlphaDesc => LexLe(b.name, a.name)
    case AlphaAsc => LexLe(a.name, b.name)
    case Original => true
    case Undefined(_) => true
  }

  /** `a` and `b` rank equal: the sort keeps them in the order it got them. */
  predicate Equivalent(dir: SortDirection, a: Entry, b: Entry) {
    Le(dir, a, b) && Le(dir, b, a)
  }

  lemma LeTotal(dir: SortDirection, a: Entry, b: Entry)
    ensures Le(dir, a, b) || Le(dir, b, a)
  {
    LexLeTotal(a.name, b.name);
  }

  lemma LeTransitive(dir: SortDirection, a: Entry, b: Entry, c: Entry)
    requires Le(dir, a, b) && Le(dir, b, c)
    ensures Le(dir, a, c)
  {
    match dir {
      case AlphaDesc => LexLeTransitive(c.name, b.name, a.name);
      case AlphaAsc => LexLeTransitive(a.name, b.name, c.name);
      case _ =>
    }
  }

  predicate Sorted(dir: SortDirection, s: seq<Entry>) {
    forall i, j :: 0 <= i < j < |s| ==> Le(dir, s[i], s[j])
  }

  /** Put `x`, which came before every entry of `t`, in front of the first entry it may precede. */
  function Insert(dir: SortDirection, x: Entry, t: seq<Entry>): (r: seq<Entry>)
    ensures multiset(r) == multiset(t) + multiset{x}
  {
    if t == [] then [x]
    else if Le(dir, x, t[0]) then [x] + t
    else
      assert t == [t[0]] + t[1..];
      [t[0]] + Insert(dir, x, t[1..])
  }

  /** The stable sort of `s` under `dir`. */
  function StableSort(dir: SortDirection, s: seq<Entry>): (r: seq<Entry>)
    ensures multiset(r) == multiset(s)
  {
    if s == [] then []
    else
      assert s == [s[0]] + s[1..];
      Insert(dir, s[0], StableSort(dir, s[1..]))
  }

  /** A sorted list stays sorted behind an entry that may precede all of it. */
  lemma ConsSorted(dir: SortDirection, y: Entry, rest: seq<Entry>)
    requires Sorted(dir, rest)
    requires forall z | z in rest :: Le(dir, y, z)
    ensures Sorted(dir, [y] + rest)
  {
    var r := [y] + rest;
    forall i, j | 0 <= i < j < |r|
      ensures Le(dir, r[i], r[j])
    {
      assert r[j] == rest[j - 1];
      if i > 0 {
        assert r[i] == rest[i - 1];
      }
    }
  }

  /** An entry that may precede the head of a sorted list may precede all of it. */
  lemma BelowHead(dir: SortDirection, x: Entry, t: seq<Entry>)
    requires t != [] && Sorted(dir, t) && Le(dir, x, t[0])
    ensures forall z | z in t :: Le(dir, x, z)
  {
    forall z | z in t
      ensures Le(dir, x, z)
    {
      var j :| 0 <= j < |t| && t[j] == z;
      if j > 0 { LeTransitive(dir, x, t[0], z); }
    }
  }

  lemma {:induction false} InsertSorted(dir: SortDirection, x: Entry, t: seq<Entry>)
    requires Sorted(dir, t)
    ensures Sorted(dir, Insert(dir, x, t))
  {
    if t == [] {
    } else if Le(dir, x, t[0]) {
      BelowHead(dir, x, t);
      ConsSorted(dir, x, t);
    } else {
      LeTotal(dir, x, t[0]);
      var rest := Insert(dir, x, t[1..]);
      SortedTail(dir, t);
      InsertSorted(dir, x, t[1..]);
      forall y | y in rest
        ensures Le(dir, t[0], y)
      {
        assert y in multiset(rest);
        if y != x {
          assert y in t[1..];
        }
      }
      ConsSorted(dir, t[0], rest);
    }
  }

  lemma {:induction false} StableSortSorted(dir: SortDirection, s: seq<Entry>)
    ensures Sorted(dir, StableSort(dir, s))
  {
    if s != [] {
      StableSortSorted(dir, s[1..]);
      InsertSorted(dir, s[0], StableSort(dir, s[1..]));
    }
  }

  /** The entries of `s` that rank equal to `p`, in their order in `s`. */
  function Class(dir: SortDirection, s: seq<Entry>, p: Entry): (r: seq<Entry>)
    ensures |r| <= |s|
  {
    if s == [] then []
    else (if Equivalent(dir, s[0], p) then [s[0]] else []) + Class(dir, s[1..], p)
  }

  lemma SortedTail(dir: SortDirection, t: seq<Entry>)
    requires t != [] && Sorted(dir, t)
    ensures Sorted(dir, t[1..])
  {
    forall i, j | 0 <= i < j < |t[1..]|
      ensures Le(dir, t[1..][i], t[1..][j])
    {
      assert t[1..][i] == t[i + 1] && t[1..][j] == t[j + 1];
    }
  }

  /** The class of `p` in `[x] + t`. */
  lemma ClassCons(dir: SortDirection, x: Entry, t: seq<Entry>, p: Entry)
    ensures Class(dir, [x] + t, p) == (if Equivalent(dir, x, p) then [x] else []) + Class(dir, t, p)
  {
    assert ([x] + t)[0] == x && ([x] + t)[1..] == t;
  }

  /** Two entries the order strictly separates never rank equal to the same entry. */
  lemma ClassesSeparate(dir: SortDirection, x: Entry, y: Entry, p: Entry)
    requires !Le(dir, x, y)
    ensures !(Equivalent(dir, x, p) && Equivalent(dir, y, p))
  {
    if Equivalent(dir, x, p) && Equivalent(dir, y, p) {
      LeTransitive(dir, x, p, y);
    }
  }

  lemma {:induction false} InsertKeepsClass(dir: SortDirection, x: Entry, t: seq<Entry>, p: Entry)
    requires Sorted(dir, t)
    ensures Class(dir, Insert(dir, x, t), p) == (if Equivalent(dir, x, p) then [x] else []) + Class(dir, t, p)
  {
    if t == [] {
      ClassCons(dir, x, [], p);
    } else if Le(dir, x, t[0]) {
      ClassCons(dir, x, t, p);
    } else {
      SortedTail(dir, t);
      InsertKeepsClass(dir, x, t[1..], p);
      ClassBehindHead(dir, x, t, p);
    }
  }

  /** The step of `InsertKeepsClass` where `x` goes behind the head of `t`. */
  lemma ClassBehindHead(dir: SortDirection, x: Entry, t: seq<Entry>, p: Entry)
    requires t != [] && !Le(dir, x, t[0])
    requires Class(dir, Insert(dir, x, t[1..]), p) == (if Equivalent(dir, x, p) then [x] else []) + Class(dir, t[1..], p)
    ensures Class(dir, Insert(dir, x, t), p) == (if Equivalent(dir, x, p) then [x] else []) + Class(dir, t, p)
  {
    var rest := Insert(dir, x, t[1..]);
    assert Insert(dir, x, t) == [t[0]] + rest;
    ClassCons(dir, t[0], rest, p);
    assert t == [t[0]] + t[1..];
    ClassCons(dir, t[0], t[1..], p);
    ClassesSeparate(dir, x, t[0], p);
    SwapFronts(if Equivalent(dir, t[0], p) then [t[0]] else [], if Equivalent(dir, x, p) then [x] else [],
               Class(dir, t[1..], p));
  }

  /** Two fronts of which at least one is empty can be swapped. */
  lemma SwapFronts(a: seq<Entry>, b: seq<Entry>, tail: seq<Entry>)
    requires a == [] || b == []
    ensures a + (b + tail) == b + (a + tail)
  {
  }

  /** Stability: for every entry `p`, the entries ranking equal to `p` come out in the order they went in. */
  lemma {:induction false} StableSortKeepsClasses(dir: SortDirection, s: seq<Entry>, p: Entry)
    ensures Class(dir, StableSort(dir, s), p) == Class(dir, s, p)
  {
    if s != [] {
      StableSortSorted(dir, s[1..]);
      InsertKeepsClass(dir, s[0], StableSort(dir, s[1..]), p);
      StableSortKeepsClasses(dir, s[1..], p);
    }
  }

  /** `Original` keeps the enumeration order. */
  lemma {:induction false} OriginalKeepsOrder(s: seq<Entry>)
    ensures StableSort(Original, s) == s
  {
    if s != [] {
      OriginalKeepsOrder(s[1..]);
      assert s == [s[0]] + s[1..];
    }
  }
}

=== FILE: scribe_values_look.dfy ===
/**
 The prefix on `Scribe_Values.Look<StoragePriority>`: how a storage
 priority is written to and read from a save. A save keeps two elements:
 the vanilla one under `label`, holding an enum member name the unmodded
 game can read, and `label + "Numeric"`, holding the exact byte. Loading
 prefers the numeric element. The save document is an element-name to
 inner-text map; the game's `StoragePriority` enum is a parameter mapping
 each defined value to its member name.
 */
module ScribeValuesLook {
  import opened Wrappers
  import opened Decimal

  /** `Scribe.mode`. */
  datatype LoadSaveMode = Inactive | Saving | LoadingVars | ResolvingCrossRefs | PostLoadInit

  /** Child elements of the current node, by name, with their inner text. */
  type Document = map<string, string>

  /** The defined members of the `StoragePriority` enum: value to name. */
  type Members = map<byte, string>

  /** The member name written in place of a value the enum does not define. */
  const FallbackName: string := "Critical"

  /** Member names are unique and `Critical` is one of them, as in the game's enum. */
  predicate WellFormedMembers(members: Members) {
    && (forall a, b :: a in members && b in members && members[a] == members[b] ==> a == b)
    && exists v :: v in members && members[v] == FallbackName
  }

  /** The element holding the exact value. */
  function NumericLabel(tag: string): (r: string)
    ensures |r| == |tag| + 7 && r[..|tag|] == tag && r[|tag|..] == "Numeric"
  {
    tag + "Numeric"
  }

  /** What the vanilla element holds: the member name, or `Critical` for an undefined value. */
  function LegacyName(members: Members, value: byte): (name: string)
    ensures value in members ==> name == members[value]
    ensures value !in members ==> name == FallbackName
  {
    if value in members then members[value] else FallbackName
  }

  /** The smallest defined value from `from` on whose member name is `text`. */
  function MemberNamed(members: Members, text: string, from: nat): (r: Option<byte>)
    requires from <= 256
    ensures r.Some? ==> from <= r.value && r.value in members && members[r.value] == text
    ensures r.None? ==> forall m :: from <= m && m in members ==> members[m] != text
    decreases 256 - from
  {
    if from == 256 then None
    else if from in members && members[from] == text then Some(from)
    else MemberNamed(members, text, from + 1)
  }

  /** Reading an enum member by name, with `fallback` for anything else. */
  function ParseMember(members: Members, text: string, fallback: byte): (v: byte)
    ensures (exists m :: m in members && members[m] == text) ==> v in members && members[v] == text
    ensures (forall m :: m in members ==> members[m] != text) ==> v == fallback
  {
    match MemberNamed(members, text, 0)
    case Some(m) => m
    case None => fallback
  }

  /** Reading the numeric element as an `int` (default on failure), then casting to the byte-backed enum. */
  function ParseNumeric(text: string, fallback: byte): (v: byte)
    ensures ParseInt(text).Some? ==> v == ToByte(ParseInt(text).value)
    ensures ParseInt(text).None? ==> v == fallback
  {
    match ParseInt(text)
    case Some(i) => ToByte(i)
    case None => fallback
  }

  /** The prefix's effect: the (possibly loaded) value, the document after it, and whether the game's own `Look` still runs. */
  datatype Look = Look(value: byte, doc: Document, runOriginal: bool)

  /** `Scribe_Values_Look.Prefix`. */
  function Prefix(mode: LoadSaveMode, members: Members, doc: Document,
                  value: byte, tag: string, defaultValue: byte, forceSave: bool): (r: Look)
    ensures r.runOriginal <==> !(mode == Saving || mode == LoadingVars)
    ensures mode != LoadingVars ==> r.value == value
    ensures mode != Saving ==> r.doc == doc
    ensures mode == Saving && !forceSave && value == defaultValue ==> r.doc == doc
    ensures mode == Saving && (forceSave || value != defaultValue) ==>
              && r.doc.Keys == doc.Keys + {tag, NumericLabel(tag)}
              && r.doc[tag] == LegacyName(members, value)
              && ParseByte(r.doc[NumericLabel(tag)]) == Some(value)
              && forall k :: k in doc && k != tag && k != NumericLabel(tag) ==> r.doc[k] == doc[k]
    ensures mode == LoadingVars && NumericLabel(tag) in doc ==>
              r.value == ParseNumeric(doc[NumericLabel(tag)], defaultValue)
    ensures mode == LoadingVars && NumericLabel(tag) !in doc ==>
              r.value == (if tag in doc then ParseMember(members, doc[tag], defaultValue) else defaultValue)
  {
    match mode
    case Saving =>
      if !forceSave && value == defaultValue then Look(value, doc, false)
      else
        ShowParseByteRoundTrip(value);
        Look(value, doc[tag := LegacyName(members, value)][NumericLabel(tag) := Show(value)], false)
    case LoadingVars =>
      var numeric := NumericLabel(tag);
      if numeric in doc then Look(ParseNumeric(doc[numeric], defaultValue), doc, false)
      else if tag in doc then Look(ParseMember(members, doc[tag], defaultValue), doc, false)
      else Look(defaultValue, doc, false)
    case _ => Look(value, doc, true)
  }

  /** The numeric element's name never collides with the vanilla one. */
  lemma NumericLabelDiffers(tag: string)
    ensures NumericLabel(tag) != tag
  {
  }

  /**
   Round trip: saving a value into a node that has neither element yet and
   loading that node back gives the value, defined member or not, forced
   or skipped as equal to the default.
   */
  lemma SaveLoadRoundTrip(members: Members, doc: Document, value: byte, tag: string,
                          defaultValue: byte, forceSave: bool, current: byte)
    requires tag !in doc && NumericLabel(tag) !in doc
    ensures var saved := Prefix(Saving, members, doc, value, tag, defaultValue, forceSave).doc;
            Prefix(LoadingVars, members, saved, current, tag, defaultValue, forceSave).value == value
  {
    var saved := Prefix(Saving, members, doc, value, tag, defaultValue, forceSave).doc;
    if forceSave || value != defaultValue {
      NumericLabelDiffers(tag);
      assert saved[NumericLabel(tag)] == Show(value);
      ShowIntParseRoundTrip(value);
      assert ShowInt(value) == Show(value);
    }
  }

  /**
   What the unmodded game reads back from the vanilla element alone: the
   value itself when the enum defines it, else the `Critical` member.
   */
  lemma LegacyReadBack(members: Members, doc: Document, value: byte, tag: string,
                       defaultValue: byte, forceSave: bool)
    requires WellFormedMembers(members)
    requires forceSave || value != defaultValue
    ensures var saved := Prefix(Saving, members, doc, value, tag, defaultValue, forceSave).doc;
            var read := ParseMember(members, saved[tag], defaultValue);
            && (value in members ==> read == value)
            && (value !in members ==> read in members && members[read] == FallbackName)
  {
    var saved := Prefix(Saving, members, doc, value, tag, defaultValue, forceSave).doc;
    NumericLabelDiffers(tag);
    assert saved[tag] == LegacyName(members, value);
  }
}

=== FILE: sequence_matcher.dfy ===
/**
 `FindSequenceIndex`: the leftmost position where a chain of instruction
 predicates holds of consecutive instructions. The helper's own code is not
 part of this model; it is specified by that leftmost-match rule.
 */
module SequenceMatcher {
  import opened Wrappers
  import opened Instructions

  /** An ordered chain of predicates, one per consecutive instruction. */
  type Pattern = seq<Instruction -> bool>

  /** Every predicate of `pattern` holds of the instruction at the same offset from `i`. */
  predicate MatchesAt(s: seq<Instruction>, pattern: Pattern, i: int) {
    0 <= i && i + |pattern| <= |s| && forall j :: 0 <= j < |pattern| ==> pattern[j](s[i + j])
  }

  /** The first match at or after `from`. */
  function FindFrom(s: seq<Instruction>, pattern: Pattern, from: nat): (r: Option<nat>)
    ensures r.Some? ==> from <= r.value && MatchesAt(s, pattern, r.value)
    ensures forall k :: from <= k && (r.None? || k < r.value) ==> !MatchesAt(s, pattern, k)
    decreases |s| - from
  {
    if from + |pattern| > |s| then None
    else if MatchesAt(s, pattern, from) then Some(from)
    else FindFrom(s, pattern, from + 1)
  }

  /** The leftmost match of `pattern` in `s`, or `None` when there is none. */
  function FindSequenceIndex(s: seq<Instruction>, pattern: Pattern): (r: Option<nat>)
    ensures r.Some? ==> MatchesAt(s, pattern, r.value) && forall k :: 0 <= k < r.value ==> !MatchesAt(s, pattern, k)
    ensures r.None? <==> forall k :: !MatchesAt(s, pattern, k)
  {
    FindFrom(s, pattern, 0)
  }
}

=== FILE: settings.dfy ===
/**
 The mod's settings (`NumericStoragePrioritySettings`): the custom-name map
 from priority to display name, the free-preset search, and the editing
 rules of the settings window with the widget layout taken out. One call of
 `DoSettingsWindowContents` is one drawn frame: what the user typed into a
 row's fields and which buttons were clicked in that frame are inputs.
 */
module NumericStoragePrioritySettings {
  import opened Wrappers
  import opened Decimal
  import opened Text

  /** `SortDirection`; `Undefined` stands for any other value the enum field can hold. */
  datatype SortDirection = Original | NumericDesc | NumericAsc | AlphaDesc | AlphaAsc | Undefined(raw: int)

  datatype ModSettings = ModSettings(disableNames: bool, disableInput: bool, customNames: map<int, string>, sort: SortDirection)

  /** One custom-name entry, as the dictionary enumerates it. */
  datatype Entry = Entry(key: int, name: string)

  /** `order` is an enumeration order of `names`: every key exactly once. */
  predicate Enumerates(order: seq<int>, names: map<int, string>) {
    && (forall i, j :: 0 <= i < j < |order| ==> order[i] != order[j])
    && (forall k :: k in names ==> k in order)
    && (forall i :: 0 <= i < |order| ==> order[i] in names)
  }

  /** The entries of `names` in the enumeration order `order`. */
  function Entries(names: map<int, string>, order: seq<int>): (r: seq<Entry>)
    requires forall i :: 0 <= i < |order| ==> order[i] in names
  {
    seq(|order|, i requires 0 <= i < |order| => Entry(order[i], names[order[i]]))
  }

  /** `byte.MaxValue`: the preset search stops before it. */
  const PresetLimit: nat := 255

  function FreeFrom(names: map<int, string>, from: nat): (r: Option<byte>)
    requires from <= PresetLimit
    ensures r.Some? ==> from <= r.value < PresetLimit && r.value !in names
    ensures forall v :: from <= v < PresetLimit && (r.None? || v < r.value) ==> v in names
    decreases PresetLimit - from
  {
    if from == PresetLimit then None
    else if from !in names then Some(from)
    else FreeFrom(names, from + 1)
  }

  /**
   `FindFreePresetNumber`: the smallest value in 0..254 that is not yet a
   key; `None` when all of them are taken. 255 is never offered.
   */
  function FindFreePresetNumber(names: map<int, string>): (r: Option<byte>)
    ensures r.Some? ==> r.value < PresetLimit && r.value !in names
    ensures r.Some? ==> forall v :: 0 <= v < r.value ==> v in names
    ensures r.None? <==> forall v :: 0 <= v < PresetLimit ==> v in names
  {
    FreeFrom(names, 0)
  }

  /** The Add button: shown only when a free preset exists; clicking it adds that preset under the default name. */
  function AddPreset(names: map<int, string>, addClicked: bool, defaultName: string): (r: map<int, string>)
    ensures var free := FindFreePresetNumber(names);
            free.Some? && addClicked ==>
              && r.Keys == names.Keys + {free.value}
              && |r| == |names| + 1
              && r[free.value] == defaultName
              && forall k :: k in names ==> r[k] == names[k]
    ensures FindFreePresetNumber(names).None? || !addClicked ==> r == names
  {
    match FindFreePresetNumber(names)
    case Some(free) => if addClicked then names[free := defaultName] else names
    case None => names
  }

  /** The name editor's state between frames: `_lastEditedPriority`, `_newPriority`, `_newName`. */
  datatype EditState = EditState(lastEdited: Option<byte>, newPriority: byte, newName: string)

  const NotEditing: EditState := EditState(None, 0, "")

  /** `_lastEditedPriority == key`, comparing a nullable byte with an int. */
  predicate IsEditing(edit: EditState, key: int) {
    edit.lastEdited.Some? && edit.lastEdited.value == key
  }

  /** The search filter: the lower-cased name, or the key's decimal text, contains the (lower-cased) search text. */
  predicate Listed(e: Entry, search: string) {
    Contains(Lower(e.name), search) || Contains(ShowInt(e.key), search)
  }

  /** The rows the window draws: the listed entries, in enumeration order. */
  function ListedEntries(entries: seq<Entry>, search: string): (r: seq<Entry>)
    ensures forall e :: e in r <==> e in entries && Listed(e, search)
    ensures |r| <= |entries|
  {
    if entries == [] then []
    else (if Listed(entries[0], search) then [entries[0]] else []) + ListedEntries(entries[1..], search)
  }

  /** An empty search lists every entry. */
  lemma {:induction false} EmptySearchListsAll(entries: seq<Entry>)
    ensures ListedEntries(entries, "") == entries
  {
    if entries != [] {
      ContainsEmpty(Lower(entries[0].name));
      EmptySearchListsAll(entries[1..]);
    }
  }

  /** The text a row's priority field starts the frame with. */
  function PriorityField(edit: EditState, e: Entry): (r: string)
    ensures IsEditing(edit, e.key) ==> ParseByte(r) == Some(edit.newPriority)
    ensures !IsEditing(edit, e.key) ==> r == ShowInt(e.key) && ParsedPriority(r, e.key) == ToByte(e.key)
  {
    ShowParseByteRoundTrip(edit.newPriority);
    UntouchedPriorityFieldGivesKey(e.key);
    if IsEditing(edit, e.key) then Show(edit.newPriority) else ShowInt(e.key)
  }

  /** The text a row's name field starts the frame with. */
  function NameField(edit: EditState, e: Entry): (r: string)
    ensures IsEditing(edit, e.key) ==> r == edit.newName
    ensures !IsEditing(edit, e.key) ==> r == e.name
  {
    if IsEditing(edit, e.key) then edit.newName else e.name
  }

  /** `byte.TryParse` of the priority field, falling back to the entry's own key cast to a byte. */
  function ParsedPriority(text: string, key: int): (b: byte)
    ensures ParseByte(text).Some? ==> b == ParseByte(text).value
    ensures ParseByte(text).None? ==> b == ToByte(key)
  {
    match ParseByte(text)
    case Some(v) => v
    case None => ToByte(key)
  }

  /** An untouched priority field gives back the entry's own key, cast to a byte, whatever that key is. */
  lemma UntouchedPriorityFieldGivesKey(key: int)
    ensures ParsedPriority(ShowInt(key), key) == ToByte(key)
  {
    ParseByteShowInt(key);
  }

  /**
   The capture rule: the row becomes (or stays) the edited one, with what
   its fields now hold, when it already was the edited one or when its
   parsed priority or its name differs from the entry.
   */
  function CaptureEdit(edit: EditState, e: Entry, priorityText: string, nameText: string): (r: EditState)
    ensures r == edit || r == EditState(Some(ToByte(e.key)), ParsedPriority(priorityText, e.key), nameText)
    ensures r != edit ==> IsEditing(edit, e.key) || ParsedPriority(priorityText, e.key) != e.key || nameText != e.name
    ensures IsEditing(edit, e.key) || ParsedPriority(priorityText, e.key) != e.key || nameText != e.name ==>
              IsEditing(r, ToByte(e.key)) && r.newPriority == ParsedPriority(priorityText, e.key) && r.newName == nameText
  {
    var priority := ParsedPriority(priorityText, e.key);
    if IsEditing(edit, e.key) || priority != e.key || nameText != e.name
    then EditState(Some(ToByte(e.key)), priority, nameText)
    else edit
  }

  /** Drawing a row whose key is a byte and whose fields the user left alone changes nothing. */
  lemma UntouchedRowKeepsEditState(edit: EditState, e: Entry)
    requires 0 <= e.key < 256
    ensures CaptureEdit(edit, e, PriorityField(edit, e), NameField(edit, e)) == edit
  {
    if IsEditing(edit, e.key) {
      ShowParseByteRoundTrip(edit.newPriority);
    } else {
      UntouchedPriorityFieldGivesKey(e.key);
    }
  }

  /** Once a row with a byte key is the edited one, it stays so and records exactly what the user typed. */
  lemma EditedRowStaysEdited(edit: EditState, e: Entry, priorityText: string, nameText: string)
    requires 0 <= e.key < 256 && IsEditing(edit, e.key)
    ensures var r := CaptureEdit(edit, e, priorityText, nameText);
            IsEditing(r, e.key) && r.newName == nameText && r.newPriority == ParsedPriority(priorityText, e.key)
  {
  }

  /**
   A key outside 0..255 (possible only from a saved map) never equals its
   parsed byte, so its row is captured on every frame, under the truncated
   key, which names a different entry.
   */
  lemma OutOfRangeKeyIsAlwaysCaptured(edit: EditState, e: Entry, priorityText: string, nameText: string)
    requires !(0 <= e.key < 256)
    ensures var r := CaptureEdit(edit, e, priorityText, nameText);
            r.lastEdited == Some(ToByte(e.key)) && !IsEditing(r, e.key)
  {
  }

  /** What a row can receive in one frame: the text of its two fields and clicks on its two buttons. */
  datatype RowInput = RowInput(priorityText: string, nameText: string, confirmClicked: bool, deleteClicked: bool)

  /** The loop's running state: the editor state, `performUpdate` and `deleteName`. */
  datatype RowsState = RowsState(edit: EditState, performUpdate: bool, deleteName: Option<byte>)

  /** One row: capture edits, then the Confirm button (drawn only on the edited row) and the Delete button. */
  function ProcessRow(acc: RowsState, e: Entry, input: RowInput): (r: RowsState)
    ensures r.edit == acc.edit || r.edit == EditState(Some(ToByte(e.key)), ParsedPriority(input.priorityText, e.key), input.nameText)
    ensures r.performUpdate && !acc.performUpdate ==> input.confirmClicked && 0 <= e.key < 256 && IsEditing(r.edit, e.key)
    ensures input.confirmClicked && IsEditing(r.edit, e.key) ==> r.performUpdate
    ensures acc.performUpdate ==> r.performUpdate
    ensures input.deleteClicked ==> r.deleteName == Some(ToByte(e.key))
    ensures !input.deleteClicked ==> r.deleteName == acc.deleteName
  {
    var edit := CaptureEdit(acc.edit, e, input.priorityText, input.nameText);
    RowsState(edit,
              acc.performUpdate || (IsEditing(edit, e.key) && input.confirmClicked),
              if input.deleteClicked then Some(ToByte(e.key)) else acc.deleteName)
  }

  /** The loop over the listed rows. */
  function ProcessRows(acc: RowsState, rows: seq<Entry>, inputs: seq<RowInput>): (r: RowsState)
    requires |rows| == |inputs|
    requires acc.performUpdate ==> acc.edit.lastEdited.Some?
    ensures r.performUpdate ==> r.edit.lastEdited.Some?
    ensures acc.performUpdate ==> r.performUpdate
    ensures r.performUpdate && !acc.performUpdate ==>
              exists i :: 0 <= i < |rows| && inputs[i].confirmClicked && 0 <= rows[i].key < 256
    ensures r.edit == acc.edit
            || exists i :: 0 <= i < |rows| && r.edit == EditState(Some(ToByte(rows[i].key)),
                                                                   ParsedPriority(inputs[i].priorityText, rows[i].key),
                                                                   inputs[i].nameText)
    ensures (forall i :: 0 <= i < |inputs| ==> !inputs[i].deleteClicked) ==> r.deleteName == acc.deleteName
    ensures r.deleteName != acc.deleteName ==>
              exists i :: 0 <= i < |rows| && inputs[i].deleteClicked && r.deleteName == Some(ToByte(rows[i].key))
    ensures forall i :: 0 <= i < |inputs| && inputs[i].deleteClicked && (forall j :: i < j < |inputs| ==> !inputs[j].deleteClicked) ==>
              r.deleteName == Some(ToByte(rows[i].key))
    decreases |rows|
  {
    if rows == [] then acc
    else
      var r := ProcessRows(ProcessRow(acc, rows[0], inputs[0]), rows[1..], inputs[1..]);
      assert forall i :: 1 <= i < |rows| ==> rows[1..][i - 1] == rows[i] && inputs[1..][i - 1] == inputs[i];
      r
  }

  /**
   The Confirm action: drop the edited entry's old key, then map the new
   priority to the new name (overwriting any entry already there), and
   leave editing.
   */
  function Commit(names: map<int, string>, edit: EditState): (r: map<int, string>)
    requires edit.lastEdited.Some?
    ensures edit.newPriority in r && r[edit.newPriority] == edit.newName
    ensures edit.lastEdited.value != edit.newPriority ==> edit.lastEdited.value !in r
    ensures forall k :: k != edit.lastEdited.value && k != edit.newPriority ==>
              (k in r <==> k in names) && (k in names ==> r[k] == names[k])
  {
    (names - {edit.lastEdited.value})[edit.newPriority := edit.newName]
  }

  /** After the rows: commit when Confirm was clicked, then delete when Delete was clicked. */
  function FinishFrame(names: map<int, string>, rows: RowsState): (r: (map<int, string>, EditState))
    requires rows.performUpdate ==> rows.edit.lastEdited.Some?
    ensures rows.performUpdate ==> r.1 == NotEditing
    ensures !rows.performUpdate ==> r.1 == rows.edit
    ensures rows.deleteName.Some? ==> rows.deleteName.value !in r.0
    ensures !rows.performUpdate && rows.deleteName.None? ==> r.0 == names
    ensures rows.performUpdate && rows.edit.lastEdited.value != rows.edit.newPriority ==>
              rows.edit.lastEdited.value !in r.0
    ensures rows.performUpdate && rows.deleteName != Some(rows.edit.newPriority) ==>
              rows.edit.newPriority in r.0 && r.0[rows.edit.newPriority] == rows.edit.newName
    ensures forall k :: (rows.deleteName.None? || k != rows.deleteName.value)
                        && (!rows.performUpdate || (k != rows.edit.lastEdited.value && k != rows.edit.newPriority)) ==>
              (k in r.0 <==> k in names) && (k in names ==> r.0[k] == names[k])
  {
    var committed := if rows.performUpdate then Commit(names, rows.edit) else names;
    var edit := if rows.performUpdate then NotEditing else rows.edit;
    var remaining := if rows.deleteName.Some? then committed - {rows.deleteName.value} else committed;
    (remaining, edit)
  }

  /** What the user does in one frame of the settings window. */
  datatype FrameInput = FrameInput(searchText: string, addClicked: bool, defaultName: string,
                                   order: seq<int>, rows: seq<RowInput>)

  /** The map the rows are drawn from: the defaults when the map is empty, then the new preset when Add was clicked. */
  function NamesShown(names: map<int, string>, defaults: map<int, string>, input: FrameInput): (r: map<int, string>)
    ensures |names| == 0 ==> forall k :: k in defaults ==> k in r && r[k] == defaults[k]
    ensures |names| > 0 ==> forall k :: k in names ==> k in r && r[k] == names[k]
    ensures !input.addClicked ==> r == if |names| == 0 then defaults else names
    ensures |r| <= (if |names| == 0 then |defaults| else |names|) + 1
  {
    AddPreset(if |names| == 0 then defaults else names, input.addClicked, input.defaultName)
  }

  /** The rows a frame draws, in the enumeration order `input.order`. */
  function RowsShown(names: map<int, string>, defaults: map<int, string>, input: FrameInput): (r: seq<Entry>)
    requires Enumerates(input.order, NamesShown(names, defaults, input))
  {
    ListedEntries(Entries(NamesShown(names, defaults, input), input.order), Lower(input.searchText))
  }

  /**
   The keys a frame can change: the key of a row whose Delete was clicked
   and, once any Confirm was clicked, the keys the editor held before the
   frame and every drawn row's key and parsed priority.
   */
  predicate MayChange(k: int, edit: EditState, rows: seq<Entry>, inputs: seq<RowInput>)
    requires |rows| == |inputs|
  {
    || (exists i :: 0 <= i < |rows| && inputs[i].deleteClicked && k == ToByte(rows[i].key))
    || ((exists i :: 0 <= i < |inputs| && inputs[i].confirmClicked)
        && (IsEditing(edit, k) || (edit.lastEdited.Some? && k == edit.newPriority)
            || exists i :: 0 <= i < |rows| && (k == ToByte(rows[i].key) || k == ParsedPriority(inputs[i].priorityText, rows[i].key))))
  }

  /**
   `DoSettingsWindowContents` minus its widgets: seed an empty map with the
   game's default labels, offer Add, walk the listed rows, then commit and
   delete. Returns the new map and editor state.
   */
  function DoSettingsWindowContents(names: map<int, string>, edit: EditState, defaults: map<int, string>,
                                    input: FrameInput): (r: (map<int, string>, EditState))
    requires Enumerates(input.order, NamesShown(names, defaults, input))
    requires |input.rows| == |RowsShown(names, defaults, input)|
    ensures r.1 == NotEditing || r.1.lastEdited == edit.lastEdited
            || exists i :: 0 <= i < |input.rows| && r.1.lastEdited == Some(ToByte(RowsShown(names, defaults, input)[i].key))
    ensures var st := ProcessRows(RowsState(edit, false, None), RowsShown(names, defaults, input), input.rows);
            && (st.performUpdate ==> r.1 == NotEditing)
            && (!st.performUpdate ==> r.1 == st.edit)
            && (st.performUpdate && st.deleteName != Some(st.edit.newPriority) ==>
                  st.edit.newPriority in r.0 && r.0[st.edit.newPriority] == st.edit.newName)
            && (st.performUpdate && st.edit.lastEdited.value != st.edit.newPriority ==> st.edit.lastEdited.value !in r.0)
    ensures (forall i :: 0 <= i < |input.rows| ==> !input.rows[i].confirmClicked && !input.rows[i].deleteClicked) ==>
              r.0 == NamesShown(names, defaults, input)
    ensures var rows := RowsShown(names, defaults, input);
            forall i :: 0 <= i < |input.rows| && input.rows[i].deleteClicked
                        && (forall j :: i < j < |input.rows| ==> !input.rows[j].deleteClicked) ==>
              ToByte(rows[i].key) !in r.0
    ensures var shown := NamesShown(names, defaults, input);
            forall k :: !MayChange(k, edit, RowsShown(names, defaults, input), input.rows) ==>
              (k in r.0 <==> k in shown) && (k in shown ==> r.0[k] == shown[k])
  {
    var shown := NamesShown(names, defaults, input);
    var rows := RowsShown(names, defaults, input);
    var state := ProcessRows(RowsState(edit, false, None), rows, input.rows);
    FrameChangesOnlyTouchedKeys(shown, edit, rows, input.rows);
    FinishFrame(shown, state)
  }

  /** Walking the rows and finishing the frame changes only keys `MayChange` names. */
  lemma FrameChangesOnlyTouchedKeys(shown: map<int, string>, edit: EditState, rows: seq<Entry>, inputs: seq<RowInput>)
    requires |rows| == |inputs|
    ensures var out := FinishFrame(shown, ProcessRows(RowsState(edit, false, None), rows, inputs)).0;
            forall k :: !MayChange(k, edit, rows, inputs) ==>
              (k in out <==> k in shown) && (k in shown ==> out[k] == shown[k])
  {
    var st := ProcessRows(RowsState(edit, false, None), rows, inputs);
    var out := FinishFrame(shown, st).0;
    forall k | !MayChange(k, edit, rows, inputs)
      ensures (k in out <==> k in shown) && (k in shown ==> out[k] == shown[k])
    {
      assert st.deleteName.None? || k != st.deleteName.value;
      if st.performUpdate {
        assert exists i :: 0 <= i < |inputs| && inputs[i].confirmClicked;
        assert k != st.edit.lastEdited.value && k != st.edit.newPriority;
      }
    }
  }

  /** The field texts and button state of a row the user leaves alone. */
  function IdleInput(edit: EditState, e: Entry): (r: RowInput) {
    RowInput(PriorityField(edit, e), NameField(edit, e), false, false)
  }

  lemma {:induction false} IdleRowsKeepState(acc: RowsState, rows: seq<Entry>, inputs: seq<RowInput>)
    requires |rows| == |inputs| && (acc.performUpdate ==> acc.edit.lastEdited.Some?)
    requires forall i :: 0 <= i < |rows| ==> 0 <= rows[i].key < 256 && inputs[i] == IdleInput(acc.edit, rows[i])
    ensures ProcessRows(acc, rows, inputs) == acc
    decreases |rows|
  {
    if rows != [] {
      UntouchedRowKeepsEditState(acc.edit, rows[0]);
      assert ProcessRow(acc, rows[0], inputs[0]) == acc;
      IdleRowsKeepState(acc, rows[1..], inputs[1..]);
    }
  }

  /**
   A frame in which the user types nothing and clicks nothing leaves the
   map and the editor state as they were, as long as the map is not empty
   (else the defaults are seeded) and every key is a byte.
   */
  lemma IdleFrameChangesNothing(names: map<int, string>, edit: EditState, defaults: map<int, string>, input: FrameInput)
    requires |names| > 0 && !input.addClicked
    requires forall k :: k in names ==> 0 <= k < 256
    requires Enumerates(input.order, names)
    requires |input.rows| == |RowsShown(names, defaults, input)|
    requires forall i :: 0 <= i < |input.rows| ==> input.rows[i] == IdleInput(edit, RowsShown(names, defaults, input)[i])
    ensures DoSettingsWindowContents(names, edit, defaults, input) == (names, edit)
  {
    var rows := RowsShown(names, defaults, input);
    var entries := Entries(names, input.order);
    forall i | 0 <= i < |rows|
      ensures 0 <= rows[i].key < 256
    {
      assert rows[i] in entries;
      var j :| 0 <= j < |entries| && entries[j] == rows[i];
      assert input.order[j] in names;
    }
    IdleRowsKeepState(RowsState(edit, false, None), rows, input.rows);
  }

  /** Walking the rows in two pieces is walking them in one. */
  lemma {:induction false} ProcessRowsSplit(acc: RowsState, rows: seq<Entry>, inputs: seq<RowInput>, j: int)
    requires |rows| == |inputs| && (acc.performUpdate ==> acc.edit.lastEdited.Some?)
    requires 0 <= j <= |rows|
    ensures ProcessRows(acc, rows, inputs) == ProcessRows(ProcessRows(acc, rows[..j], inputs[..j]), rows[j..], inputs[j..])
    decreases |rows|
  {
    if j > 0 {
      var next := ProcessRow(acc, rows[0], inputs[0]);
      var headRows, headInputs := rows[..j], inputs[..j];
      assert headRows[1..] == rows[1..][..j - 1] && headInputs[1..] == inputs[1..][..j - 1];
      assert rows[1..][j - 1..] == rows[j..] && inputs[1..][j - 1..] == inputs[j..];
      calc {
        ProcessRows(acc, rows, inputs);
        ProcessRows(next, rows[1..], inputs[1..]);
        { ProcessRowsSplit(next, rows[1..], inputs[1..], j - 1); }
        ProcessRows(ProcessRows(next, rows[1..][..j - 1], inputs[1..][..j - 1]), rows[j..], inputs[j..]);
        { assert headRows[0] == rows[0] && headInputs[0] == inputs[0]; }
        ProcessRows(ProcessRows(acc, headRows, headInputs), rows[j..], inputs[j..]);
      }
    } else {
      assert rows[..j] == [] && rows[j..] == rows && inputs[j..] == inputs;
    }
  }

  /**
   A row whose Confirm click requests the commit (it is the edited row when
   its turn comes) makes the whole walk request it: later rows never take
   the request back.
   */
  lemma {:induction false} ConfirmOnEditedRowRequestsCommit(acc: RowsState, rows: seq<Entry>, inputs: seq<RowInput>, i: int)
    requires |rows| == |inputs| && (acc.performUpdate ==> acc.edit.lastEdited.Some?)
    requires 0 <= i < |rows|
    requires var before := ProcessRows(acc, rows[..i], inputs[..i]);
             inputs[i].confirmClicked && IsEditing(ProcessRow(before, rows[i], inputs[i]).edit, rows[i].key)
    ensures ProcessRows(acc, rows, inputs).performUpdate
  {
    ProcessRowsSplit(acc, rows, inputs, i);
    var before := ProcessRows(acc, rows[..i], inputs[..i]);
    assert rows[i..][1..] == rows[i + 1..] && inputs[i..][1..] == inputs[i + 1..];
  }

  /** Entries whose keys are pairwise different. */
  predicate DistinctKeys(es: seq<Entry>) {
    forall a, b :: 0 <= a < b < |es| ==> es[a].key != es[b].key
  }

  lemma {:induction false} ListedKeepsKeysDistinct(entries: seq<Entry>, search: string)
    requires DistinctKeys(entries)
    ensures DistinctKeys(ListedEntries(entries, search))
    decreases |entries|
  {
    if entries != [] {
      var tail := entries[1..];
      assert forall a, b :: 0 <= a < b < |tail| ==> tail[a] == entries[a + 1] && tail[b] == entries[b + 1];
      ListedKeepsKeysDistinct(tail, search);
      var rest := ListedEntries(tail, search);
      HeadKeyNotListedAgain(entries, search);
      if Listed(entries[0], search) {
        ConsDistinct(entries[0], rest);
      }
    }
  }

  lemma HeadKeyNotListedAgain(entries: seq<Entry>, search: string)
    requires entries != [] && DistinctKeys(entries)
    ensures forall e :: e in ListedEntries(entries[1..], search) ==> e.key != entries[0].key
  {
    var tail := entries[1..];
    forall e | e in ListedEntries(tail, search)
      ensures e.key != entries[0].key
    {
      var j :| 0 <= j < |tail| && tail[j] == e;
      assert entries[j + 1] == e;
    }
  }

  lemma ConsDistinct(h: Entry, rest: seq<Entry>)
    requires DistinctKeys(rest) && forall e :: e in rest ==> e.key != h.key
    ensures DistinctKeys([h] + rest)
  {
    var r := [h] + rest;
    forall a, b | 0 <= a < b < |r|
      ensures r[a].key != r[b].key
    {
      assert r[b] == rest[b - 1] && r[b] in rest;
      if a > 0 {
        assert r[a] == rest[a - 1];
      }
    }
  }

  /** The rows a frame draws have pairwise different keys. */
  lemma RowsShownDistinct(names: map<int, string>, defaults: map<int, string>, input: FrameInput)
    requires Enumerates(input.order, NamesShown(names, defaults, input))
    ensures DistinctKeys(RowsShown(names, defaults, input))
  {
    var entries := Entries(NamesShown(names, defaults, input), input.order);
    assert forall a :: 0 <= a < |entries| ==> entries[a].key == input.order[a];
    ListedKeepsKeysDistinct(entries, Lower(input.searchText));
  }

  /**
   Saving an edit: when the editor is on a drawn row, every other row is
   left alone, and the user clicks that row's Confirm, the frame ends with
   the editor reset, the typed priority mapped to the typed name (unless the
   same row's Delete removes that key again), the old key gone when the
   priority changed, and every other key keeping its name.
   */
  lemma ConfirmSavesEdit(names: map<int, string>, edit: EditState, defaults: map<int, string>, input: FrameInput, i: int)
    requires Enumerates(input.order, NamesShown(names, defaults, input))
    requires forall k :: k in NamesShown(names, defaults, input) ==> 0 <= k < 256
    requires |input.rows| == |RowsShown(names, defaults, input)|
    requires 0 <= i < |input.rows|
    requires IsEditing(edit, RowsShown(names, defaults, input)[i].key)
    requires input.rows[i].confirmClicked
    requires forall j :: 0 <= j < |input.rows| && j != i ==> input.rows[j] == IdleInput(edit, RowsShown(names, defaults, input)[j])
    ensures var r := DoSettingsWindowContents(names, edit, defaults, input);
            var key := RowsShown(names, defaults, input)[i].key;
            var priority := ParsedPriority(input.rows[i].priorityText, key);
            && r.1 == NotEditing
            && (!input.rows[i].deleteClicked || priority != key ==>
                  priority in r.0 && r.0[priority] == input.rows[i].nameText)
            && (priority != key ==> key !in r.0)
            && forall k :: k != key && k != priority ==>
                 (k in r.0 <==> k in NamesShown(names, defaults, input))
                 && (k in r.0 ==> r.0[k] == NamesShown(names, defaults, input)[k])
  {
    RowsShownKeysAreBytes(names, defaults, input);
    RowsShownDistinct(names, defaults, input);
    ConfirmedRowsState(edit, RowsShown(names, defaults, input), input.rows, i);
  }

  /** Every drawn row's key is a key of the map drawn. */
  lemma RowsShownKeysAreBytes(names: map<int, string>, defaults: map<int, string>, input: FrameInput)
    requires Enumerates(input.order, NamesShown(names, defaults, input))
    requires forall k :: k in NamesShown(names, defaults, input) ==> 0 <= k < 256
    ensures forall j :: 0 <= j < |RowsShown(names, defaults, input)| ==> 0 <= RowsShown(names, defaults, input)[j].key < 256
  {
    var shown := NamesShown(names, defaults, input);
    var rows := RowsShown(names, defaults, input);
    var entries := Entries(shown, input.order);
    forall j | 0 <= j < |rows|
      ensures 0 <= rows[j].key < 256
    {
      assert rows[j] in entries;
      var m :| 0 <= m < |entries| && entries[m] == rows[j];
      assert input.order[m] in shown;
    }
  }

  /** The row walk of a frame in which only the edited row is touched and its Confirm is clicked. */
  lemma {:induction false} ConfirmedRowsState(edit: EditState, rows: seq<Entry>, inputs: seq<RowInput>, i: int)
    requires |rows| == |inputs| && 0 <= i < |rows|
    requires DistinctKeys(rows) && forall j :: 0 <= j < |rows| ==> 0 <= rows[j].key < 256
    requires IsEditing(edit, rows[i].key) && inputs[i].confirmClicked
    requires forall j :: 0 <= j < |rows| && j != i ==> inputs[j] == IdleInput(edit, rows[j])
    ensures var key := rows[i].key;
            ProcessRows(RowsState(edit, false, None), rows, inputs)
              == RowsState(EditState(Some(key), ParsedPriority(inputs[i].priorityText, key), inputs[i].nameText), true,
                           if inputs[i].deleteClicked then Some(key) else None)
  {
    var key := rows[i].key;
    var acc0 := RowsState(edit, false, None);
    IdleRowsKeepState(acc0, rows[..i], inputs[..i]);
    var acc1 := ProcessRow(acc0, rows[i], inputs[i]);
    assert acc1.performUpdate && acc1.edit == EditState(Some(key), ParsedPriority(inputs[i].priorityText, key), inputs[i].nameText);
    var laterRows, laterInputs := rows[i + 1..], inputs[i + 1..];
    forall j | 0 <= j < |laterRows|
      ensures laterInputs[j] == IdleInput(acc1.edit, laterRows[j])
    {
      assert laterRows[j] == rows[i + 1 + j] && laterInputs[j] == inputs[i + 1 + j];
      assert rows[i + 1 + j].key != key;
    }
    IdleRowsKeepState(acc1, laterRows, laterInputs);
    ProcessRowsSplit(acc0, rows, inputs, i);
    assert rows[i..][1..] == rows[i + 1..] && inputs[i..][1..] == inputs[i + 1..];
    assert ProcessRows(acc0, rows, inputs) == acc1;
  }
}

=== FILE: text.dfy ===
/**
 String helpers the settings screen and the menu ordering rely on. The
 culture-sensitive operations of the source (`ToLower(CurrentUICulture)`,
 the default string comparer) are represented by their culture-free
 counterparts: ASCII case mapping and ordinal lexicographic order.
 */
module Text {

  function LowerChar(c: char): (r: char) {
    if 'A' <= c <= 'Z' then ((c as int) + 32) as char else c
  }

  /** Lower-cases every ASCII letter; other characters are left as they are. */
  function Lower(s: string): (r: string) {
    seq(|s|, i requires 0 <= i < |s| => LowerChar(s[i]))
  }

  /** `needle` occurs in `hay` starting at position `i`. */
  predicate OccursAt(hay: string, needle: string, i: int) {
    0 <= i && i + |needle| <= |hay| && hay[i..i + |needle|] == needle
  }

  /** `String.Contains`: `needle` occurs as a contiguous run of `hay`. */
  predicate Contains(hay: string, needle: string) {
    exists i | 0 <= i <= |hay| :: OccursAt(hay, needle, i)
  }

  /** Ordinal lexicographic order: `a` sorts no later than `b`. */
  predicate LexLe(a: string, b: string)
    decreases |a|
  {
    if a == [] then true
    else if b == [] then false
    else if a[0] != b[0] then a[0] < b[0]
    else LexLe(a[1..], b[1..])
  }

  lemma {:induction false} LexLeTotal(a: string, b: string)
    ensures LexLe(a, b) || LexLe(b, a)
    decreases |a|
  {
    if a != [] && b != [] && a[0] == b[0] {
      LexLeTotal(a[1..], b[1..]);
    }
  }

  lemma {:induction false} LexLeTransitive(a: string, b: string, c: string)
    requires LexLe(a, b) && LexLe(b, c)
    ensures LexLe(a, c)
    decreases |a|
  {
    if a != [] && b != [] && c != [] && a[0] == b[0] && b[0] == c[0] {
      LexLeTransitive(a[1..], b[1..], c[1..]);
    }
  }

  lemma {:induction false} LexLeAntisymmetric(a: string, b: string)
    requires LexLe(a, b) && LexLe(b, a)
    ensures a == b
    decreases |a|
  {
    if a != [] && b != [] {
      LexLeAntisymmetric(a[1..], b[1..]);
      assert a == [a[0]] + a[1..] && b == [b[0]] + b[1..];
    }
  }

  /** Every string contains the empty string, so an empty search matches everything. */
  lemma ContainsEmpty(hay: string)
    ensures Contains(hay, "")
  {
    assert OccursAt(hay, "", 0);
  }
}

=== FILE: wrappers.dfy ===
/** Option and Result types shared by every module of the model. */
module Wrappers {

  /** A value that may be absent: C#'s `null` for a reference or `Nullable<T>` without a value. */
  datatype Option<+T> = None | Some(value: T)

  /** The outcome of an operation that can throw: the value, or the exception it raises. */
  datatype Result<+T, +E> = Ok(value: T) | Err(error: E)
}
